=== FILE: README.md ===
# Food delivery: carts, checkout, couriers and accounts

This project is a Dafny model of the core of a small food-delivery service. The backend is
FastAPI with SQLAlchemy and Redis. The frontend is a Vue store.

The modelled pieces:

- **Server cart** (`CartService`, `CartApi`). Each user has one Redis hash at `cart:{user_id}`.
  It maps the decimal text of a dish id to the decimal text of a count, and is incremented
  with HINCRBY. The Redis store is modelled at the level of text (`Redis`). The decimal
  codec between integers and their spellings is `Decimal`.
- **Checkout** (`OrdersApi`). The cart becomes one `orders` row and one `order_items` row per
  entry, then the cart is cleared. The order row is committed before its lines.
- **Couriers** (`CouriersApi`). The listing of `paid` orders, and accepting an order.
- **Accounts** (`UserModel`, `UserRepository`, `AuthService`, `AuthApi`). The users table,
  the repository functions, token issue and checking, registration and login.
- **Frontend cart store** (`CartStore`). An ordered list of lines with add-merge, update,
  remove, clear, total and checkout.
- **Frontend form validators** (`Validators`). The password checks, and the email checks as
  written in their regular expressions.

State is immutable: every operation is a function from the old stores to a result and the new
stores. The relational tables (`Database.Db`) are sequences, plus the set of existing dish ids
and the next keys the id sequences hand out. A query without `ORDER BY` returns its rows in no
promised order; the model fixes one, the order the rows are stored in. Money is in integer minor units
and time is in whole minutes.

The two cryptographic libraries are parameters, not models:

- Password hashing is a `Crypto.Hasher`: a pair of functions for hash and verify.
- Token signing is a `Crypto.Jwt`: a pair of functions for encode and decode.

The laws the proofs rely on are the predicates `SoundHasher` and `SoundJwt`. They are
hypotheses of the lemmas that need them.

Where the backend raises, the model returns `Http.Response.Fail(code, detail)`. The code is the
status the client sees.

## Model

| member | source | states |
|---|---|---|
| `Decimal.Show` | backend/app/services/cart.py:9-10 | Python's `str(n)`, which builds the `cart:{user_id}` key and the dish field: a `-` exactly for negative numbers, then digits with no superfluous leading zero, and never `-0`. |
| `Decimal.Parse` | backend/app/api/v1/orders.py:86-87 | The strict integer reader (Redis's, and `int()` on text Redis wrote): an accepted text is non-empty, is digits after an optional leading `-` that appears exactly for negative values, and has no superfluous leading zero. `Decimal.ShowParse` gives its inverse. |
| `Decimal.ParseShow` | backend/app/services/cart.py:15 | Reading back the decimal text an integer is stored as gives that integer. |
| `Decimal.ShowParse` | backend/app/services/cart.py:15 | Every text the strict reader accepts is the canonical spelling of the integer it denotes. |
| `Decimal.ShowInjective` | backend/app/services/cart.py:9 | Distinct integers have distinct spellings. So `cart:{user_id}` keys and dish fields never collide. |
| `Decimal.ParseInjective` | backend/app/api/v1/orders.py:83-87 | Two accepted texts that denote the same integer are the same text. So one hash never holds two fields for one dish. |
| `Redis.HIncrBy` | backend/app/services/cart.py:10 | Adds the increment to the field; a missing hash or field counts as 0. Fails, changing nothing, outside the signed 64-bit range. Other fields and keys are unchanged. |
| `Redis.HGetAll` | backend/app/services/cart.py:15 | HGETALL of a missing key reads as the empty hash. |
| `Redis.Del` | backend/app/services/cart.py:20 | The key reads as an empty hash afterwards, and every other key is untouched. |
| `CartService.CartKey` | backend/app/services/cart.py:9 | The key is `cart:` followed by text that reads back as the user's id. |
| `CartService.CartKeyInjective` | backend/app/services/cart.py:9 | Two users with the same cart key are the same user. |
| `CartService.AddToCart` | backend/app/services/cart.py:8-10 | The count for (user, dish) becomes the old count plus `q`, a missing entry counting as 0. There is no check on the sign of `q` or on the dish; on a well-formed store it fails exactly when Redis's 64-bit limits are exceeded. |
| `CartService.AddToCartFrame` | backend/app/services/cart.py:9-10 | An add changes no other dish of that user and no other user's cart. |
| `CartService.AddToCartWellFormed` | backend/app/services/cart.py:10 | After an add every field still names a dish and every value is still a 64-bit integer. |
| `CartService.GetCart` | backend/app/services/cart.py:12-15 | The user's whole hash, empty when the user has no cart. A dish without a field has count 0. |
| `CartService.DecodeCart` | backend/app/api/v1/cart.py:71 | The integer view of a well-formed hash maps each field's dish to the field's count. |
| `CartService.DecodeCartDomain` | backend/app/api/v1/cart.py:71 | A dish is in the integer view exactly when the hash has a field spelling it. |
| `CartService.GetCartRoundTrip` | backend/app/services/cart.py:15 | Turning the text `get_cart` returns back into integers recovers the stored count of each dish. |
| `CartService.DecodedCartMatchesCounts` | backend/app/services/cart.py:12-15 | The integer view holds exactly the dishes with a stored entry, each at its stored count. |
| `CartService.ClearCart` | backend/app/services/cart.py:17-20 | Afterwards the user's cart is empty, every count is 0, and every other user's cart is unchanged. |
| `CartService.AddToCartKeepsPositive` | backend/app/api/v1/cart.py:39-40 | Adding a positive quantity keeps every stored count positive. |
| `CartApi.ExceptionStatus` | backend/app/api/v1/cart.py:55-64 | A `ValueError` maps to 400 and any other exception to 404, and nothing else maps to either. |
| `CartApi.ReplyException` | backend/app/api/v1/cart.py:53-64 | A Redis error reply reaches the handler as an exception that is never a `ValueError`, so it takes the 404 branch. |
| `CartApi.AddToCartEndpoint` | backend/app/api/v1/cart.py:38-64 | A dish id or quantity that is not positive gives 422 before the service runs. A success raises the caller's count by the quantity. A failure changes nothing, and past the guards it is a 404. |
| `CartApi.AddToCartEndpointInvariant` | backend/app/api/v1/cart.py:38-54 | Through this endpoint the store stays well formed, every count stays positive, and other users' carts never change. |
| `CartApi.ViewCart` | backend/app/api/v1/cart.py:79-91 | Exactly the caller's dishes with their stored counts. A dish not listed has count 0. |
| `OrderModel.StatusNameRoundTrip` | backend/app/db/models/order.py:11-13 | The six spellings of `order_status` and the six statuses correspond one to one. |
| `OrderModel.NewOrder` | backend/app/db/models/order.py:9-17 | A new row gets status `created` unless one is given, the server time as `created_at`, and no total, delivery time or courier. |
| `OrderModel.NewOrderItem` | backend/app/db/models/order.py:26-30 | A new line gets quantity 1 unless one is given, and no captured price. |
| `UserModel.RoleNameRoundTrip` | backend/app/db/models/user.py:11 | The three spellings of `user_roles` and the three roles correspond one to one. |
| `OrdersApi.EnumerationLength` | backend/app/api/v1/orders.py:83 | Iterating `cart.items()` visits as many entries as the cart has. |
| `OrdersApi.ToLines` | backend/app/api/v1/orders.py:83-90 | One line per entry in iteration order, with the entry's dish and count and the order's id. A `ValueError` occurs exactly when some field or value is not an integer. |
| `OrdersApi.CommitOrder` | backend/app/api/v1/orders.py:78-80 | The first commit succeeds exactly when the caller's user row exists, and then appends a `created` order of the caller under the next key. A failed insert still spends that key, as a serial sequence does. |
| `OrdersApi.CommitLines` | backend/app/api/v1/orders.py:83-91 | The second commit succeeds exactly when every line's dish id and quantity fit the 32-bit `INTEGER` columns and every line names an existing dish. It then appends the lines in order; otherwise none is stored. |
| `OrdersApi.CommitOrderKeepsValid` | backend/app/api/v1/orders.py:78-80 | The first commit, whether it succeeds or fails, keeps keys unique and below the next key. |
| `OrdersApi.CommitLinesKeepsValid` | backend/app/api/v1/orders.py:83-91 | The second commit keeps every line pointing at an order key already handed out. |
| `OrdersApi.CreateOrder` | backend/app/api/v1/orders.py:69-104 | An empty cart gives 400 and changes nothing. A success appends a `created` order of the caller under the next key and one line per entry, and empties only the caller's cart. A non-empty cart succeeds exactly when the caller's user row exists, every entry reads as integers, and every line fits its columns and names an existing dish. Any failure on a non-empty cart gives 404 and leaves the cart and the lines as they were. A non-empty cart always spends the next order key. Apart from that key, the tables are unchanged exactly when the caller has no user row; otherwise the order row stays committed. |
| `OrdersApi.LinesMatchCart` | backend/app/api/v1/orders.py:83-89 | Lines built from a well-formed cart carry exactly its dishes, each once, at its count, with no price. |
| `OrdersApi.CreateOrderNewLines` | backend/app/api/v1/orders.py:83-91 | On success the rows appended to `order_items` are the cart's entries in iteration order. |
| `OrdersApi.CreateOrderLinesMatchCart` | backend/app/api/v1/orders.py:83-97 | On success the new lines are exactly the cart: one per dish, each at its count and with the new order's id, none twice, and no `price_at_order`. |
| `OrdersApi.CreateOrderPartialWrite` | backend/app/api/v1/orders.py:78-104 | A cart naming a dish that does not exist gives 404 and keeps the cart. The order row committed first stays, and no line refers to it. |
| `OrdersApi.CreateOrderKeepsValid` | backend/app/api/v1/orders.py:78-91 | Checkout keeps keys unique and every line pointing at an order key already handed out. |
| `CouriersApi.FindOrder` | backend/app/api/v1/couriers.py:123 | The primary-key lookup: a row with that id, or none exactly when no row has it. |
| `CouriersApi.AvailableOrders` | backend/app/api/v1/couriers.py:62-69 | The listing the route documents. 403 exactly for non-couriers, and a courier always gets a listing. It holds exactly the orders whose status is `paid`, no more entries than the table has rows. With `AvailableOrdersKeepOrder` it is the filter in storage order, an order the model fixes. |
| `CouriersApi.AvailableOrdersAsWritten` | backend/app/api/v1/couriers.py:24-69 | As written, 403 exactly for non-couriers. A courier gets `[]` when no order is `paid`, and otherwise a 500, because the ORM rows fail the `List[Dict[str, Any]]` response model. |
| `CouriersApi.AvailableOrdersAsWrittenFailsOnPaid` | backend/app/api/v1/couriers.py:24-69 | With any `paid` order in the table, a courier gets 500 from the route as written, while the intended listing succeeds and contains that order. |
| `CouriersApi.AvailableOrdersKeepOrder` | backend/app/api/v1/couriers.py:68 | The listing keeps the model's storage order: the listing of two table segments is the two listings in turn. |
| `CouriersApi.AcceptOrderAsWritten` | backend/app/api/v1/couriers.py:103-133 | As written, the guards are the same as `AcceptOrder`'s: 422 for an id that is not positive, then 403 for a non-courier, then 404 for an unknown id. A success changes only the target order's status, to `delivering`, and no table but `orders`. A failure changes nothing. |
| `CouriersApi.AcceptOrderAsWrittenForgetsCourier` | backend/app/api/v1/couriers.py:130-132 | As written, two different couriers accepting the same order leave identical tables. |
| `CouriersApi.AcceptOrder` | backend/app/api/v1/couriers.py:103-133 | An id that is not positive gives 422, then a non-courier gets 403 with no lookup, then an unknown id gives 404. A success sets the target's status to `delivering` and its courier to the caller, whatever the previous status. No other row or table changes. |
| `CouriersApi.AcceptOrderDistinguishesCouriers` | backend/app/api/v1/couriers.py:130-131 | With the courier recorded, two different couriers accepting the same order leave different tables. |
| `CouriersApi.AcceptOrderKeepsValid` | backend/app/api/v1/couriers.py:130-132 | Accepting keeps order keys unique. |
| `UserRepository.GetUserByEmail` | backend/app/db/repositories/users.py:5-6 | A user with that email, or none exactly when no user has it. |
| `UserRepository.GetUserByEmailFindsOwner` | backend/app/db/models/user.py:9 | With unique emails, the lookup returns exactly the user registered under that email. |
| `UserRepository.CreateUser` | backend/app/db/repositories/users.py:8-14 | It stores the hash of the password, not the password. The role defaults to `customer`, with no address, under the next key. A taken email fails the unique constraint; the only change is that the next key is spent. |
| `UserRepository.CreateUserKeepsValid` | backend/app/db/models/user.py:8-9 | Creating a user keeps emails and keys unique. |
| `UserRepository.FindUser` | backend/app/db/repositories/users.py:21 | The lookup by primary key: a row with that id, or none exactly when no row has it. |
| `UserRepository.Patched` | backend/app/db/repositories/users.py:24-25 | Every supplied field takes the supplied value; every absent field and the id keep theirs. |
| `UserRepository.UpdateUser` | backend/app/db/repositories/users.py:16-27 | An unknown id gives none and changes nothing. Otherwise exactly the supplied fields are overwritten and the rest kept. For a known id, the unique constraint fails, changing nothing, exactly when another user already holds the resulting email. Without that conflict the update succeeds, returns the patched user and stores it in place of the old row. |
| `UserRepository.UpdateUserKeepsValid` | backend/app/db/models/user.py:8-9 | Updating keeps emails and keys unique. |
| `UserRepository.ChangePassword` | backend/app/db/repositories/users.py:29-40 | False, with nothing changed, exactly when the user is missing or the old password does not verify. Otherwise the stored hash becomes the hash of the new password. |
| `UserRepository.ChangePasswordThenVerify` | backend/app/db/repositories/users.py:35-40 | After a successful change the new password verifies against the stored hash. |
| `UserRepository.GetUsers` | backend/app/db/repositories/users.py:42-43 | At most `limit` users, starting at offset `skip` of the storage order the model fixes. |
| `UserRepository.GetUsersPages` | backend/app/db/repositories/users.py:42-43 | Two consecutive pages put together are the page that spans both. |
| `AuthService.TokenClaims` | backend/app/services/auth.py:21-28 | The payload is the input claims plus `exp`, with the input itself untouched. `exp` is now plus the lifetime when one is given and non-zero, otherwise now plus 15 minutes. |
| `AuthService.CreateAccessToken` | backend/app/services/auth.py:21-29 | With a sound signer, the token decodes back to that payload until `exp` passes. |
| `AuthService.AuthenticateUserAsWritten` | backend/app/services/auth.py:32-41 | As written, the coroutine raises `TypeError` when awaited, whatever the credentials. No caller in the repository awaits it; the model reports that `TypeError` as a 500, as FastAPI would for a caller that did. |
| `AuthService.AuthenticateUser` | backend/app/services/auth.py:32-41 | Succeeds exactly when a user with that email exists and the password verifies against its hash, and then returns that user. Otherwise 401. |
| `AuthService.AuthenticateUserAsWrittenRejectsValidCredentials` | backend/app/services/auth.py:34 | For a registered user giving the right password, the intended check returns that user and the written one raises. |
| `AuthService.GetCurrentUser` | backend/app/services/auth.py:44-62 | 401 when the token does not decode, has no `sub`, or names no user. A user named by a valid token is always returned. |
| `AuthApi.SubjectClaims` | backend/app/api/v1/auth.py:54 | The claims to sign are only `sub`, holding the email, and `jwt.decode` accepts them at any time. |
| `AuthApi.Register` | backend/app/api/v1/auth.py:42-55 | The address is used as `EmailStr` normalised it. A taken address gives 400 and creates nothing. A free one always registers: a new `customer` holding the normalised address is created, and the answer is a `bearer` token whose subject is that address. |
| `AuthApi.LoginAsWritten` | backend/app/api/v1/auth.py:100-115 | As written, the form's `username` is looked up verbatim as an email. 400 unless that user exists and the password verifies. Otherwise a `bearer` token whose subject is the email. |
| `AuthApi.Login` | backend/app/api/v1/auth.py:100-115 | The login registration implies: the `username` is normalised as registration normalises, then looked up. 400 unless that user exists and the password verifies, otherwise a `bearer` token for the normalised address. On an already normalised name it is the login as written. |
| `AuthApi.RegisterTwiceRejected` | backend/app/api/v1/auth.py:48-52 | A second registration of an address that normalises to the same one fails and leaves the tables as they were. |
| `AuthApi.RegisterKeepsValid` | backend/app/api/v1/auth.py:48-53 | Registration keeps emails and keys unique. |
| `AuthApi.RegisterThenLogin` | backend/app/api/v1/auth.py:108-115 | After registering, logging in with the email as typed and the same password succeeds. |
| `AuthApi.RegisterThenLoginAsWrittenFails` | backend/app/api/v1/auth.py:108-112 | As written, logging in with the address as typed at registration gets 400 whenever normalising changed it and no other user holds it verbatim. |
| `AuthApi.RegisterTokenAuthenticates` | backend/app/api/v1/auth.py:53-55 | For 15 minutes, the token registration returns resolves to exactly the new user row, which holds the normalised address. |
| `AuthApi.LoginTokenAuthenticates` | backend/app/api/v1/auth.py:114-115 | Within its lifetime, the token a login returns resolves to the user stored under the normalised name. |
| `EmailStr.Strip` | backend/app/schemas/user.py:5 | Python's `str.strip` for ASCII whitespace: the result is a slice of the input with only whitespace before and after it, and has none at either end. So it is the input itself when that has none. |
| `EmailStr.LowerDomain` | backend/app/schemas/user.py:5 | Every character before the first `@` is kept, and every character from it on is lower-cased; without an `@` nothing changes. So the length, the position of the first `@` and the absence of surrounding whitespace are kept, and no capital remains from the `@` on. |
| `EmailStr.Normalize` | backend/app/schemas/user.py:5 | The address `EmailStr` hands the handler, for every input: the stripped input with its local part kept as typed and every character from the first `@` on lower-cased. |
| `EmailStr.NormalizeIdempotent` | backend/app/schemas/user.py:5 | Normalising a normalised address changes nothing. |
| `EmailStr.NormalizeLowersDomainCapital` | backend/app/schemas/user.py:5 | A capital after the first `@` of a stripped address is lower-cased, so normalising changes such an address. |
| `EmailStr.NormalizeExample` | backend/app/schemas/user.py:5 | `bob@Example.com` normalises to `bob@example.com`. |
| `Scenarios.AddViewCheckout` | backend/app/api/v1/orders.py:69-97 | Adding two of dish 1 and one of dish 3 shows `{1: 2, 3: 1}`. Checking out then returns the next order id, and the cart is empty afterwards. |
| `CartStore.FindLine` | frontend/src/stores/cart.ts:29 | The first line for the dish, or none exactly when no line has it. |
| `CartStore.IsEmpty` | frontend/src/stores/cart.ts:21 | The cart is empty exactly when no dish can be found in it. |
| `CartStore.Total` | frontend/src/stores/cart.ts:22-24 | 0 for an empty cart, and price times quantity for a single line. |
| `CartStore.TotalAppend` | frontend/src/stores/cart.ts:22-24 | The total of a concatenation is the sum of the totals. |
| `CartStore.TotalUpdate` | frontend/src/stores/cart.ts:22-24 | Replacing one line changes the total by the difference of the two line totals. |
| `CartStore.ComputeTotal` | frontend/src/stores/cart.ts:22-24 | The left-to-right accumulation equals the total, and it is non-negative when prices and quantities are. |
| `CartStore.AddItem` | frontend/src/stores/cart.ts:28-36 | For a dish already present, only its first line changes: quantity plus `quantity` (default 1), same number of lines. Otherwise exactly one line `{dish, quantity}` is appended. |
| `CartStore.AddItemKeepsDistinct` | frontend/src/stores/cart.ts:29-35 | Pairwise distinct dish ids stay distinct after an add. |
| `CartStore.AddItemTotal` | frontend/src/stores/cart.ts:28-36 | An add raises the total by quantity times the price of the line it lands on. |
| `CartStore.LineTotalAddQuantity` | frontend/src/stores/cart.ts:33 | The nonlinear arithmetic step `AddItemTotal` needs: raising a line's quantity by `q` raises its contribution to the total by `q` times its price. |
| `CartStore.UpdateItem` | frontend/src/stores/cart.ts:38-43 | Only the first line for the dish gets the new quantity. Nothing changes when the dish is absent. |
| `CartStore.UpdateItemIdempotent` | frontend/src/stores/cart.ts:38-43 | Setting the same quantity twice is the same as setting it once. |
| `CartStore.UpdateItemKeepsDistinct` | frontend/src/stores/cart.ts:38-43 | Pairwise distinct dish ids stay distinct after an update. |
| `CartStore.RemoveItem` | frontend/src/stores/cart.ts:45-47 | No line for the dish remains, every other line is kept, and no line is added; with `RemoveItemConcat` this is the filter in order. |
| `CartStore.RemoveItemConcat` | frontend/src/stores/cart.ts:45-47 | Removal preserves relative order: removing from a concatenation removes from each part. |
| `CartStore.RemoveItemUndoesAdd` | frontend/src/stores/cart.ts:28-47 | Adding a dish that was absent and then removing it gives the cart back. |
| `CartStore.CheckoutClearsExactlyWhenSubmitted` | frontend/src/stores/cart.ts:53-71 | For a logged-in user, checkout sends the request built from the lines and empties the cart exactly when the post resolves; otherwise it keeps the cart and reports that request as failed. |
| `CartStore.Clear` | frontend/src/stores/cart.ts:49-51 | Afterwards the cart is empty and its total is 0. |
| `CartStore.Checkout` | frontend/src/stores/cart.ts:53-71 | With no logged-in user it fails and the lines are unchanged. A failed submission also leaves the lines unchanged. For a logged-in user the result is a success exactly when the submission of the caller's id and every line's dish id and quantity, in order, resolves. Only then is the cart cleared. |
| `Validators.Utf16Length` | frontend/src/utils/validators.ts:4 | JavaScript's length lies between the character count and twice it. |
| `Validators.Utf16LengthBmp` | frontend/src/utils/validators.ts:4 | For text within the Basic Multilingual Plane, JavaScript's length is the character count. |
| `Validators.MinLength` | frontend/src/utils/validators.ts:4 | Eight characters always pass `minLength`, and fewer than four never do. |
| `Validators.MinLengthBounds` | frontend/src/utils/validators.ts:4 | For text within the Basic Multilingual Plane `minLength` passes exactly at eight characters or more. |
| `Validators.HasUpper` | frontend/src/utils/validators.ts:5 | Passes exactly when some character is in `A`-`Z`. |
| `Validators.HasNumber` | frontend/src/utils/validators.ts:6 | Passes exactly when some character is in `0`-`9`. |
| `Validators.HasSpecial` | frontend/src/utils/validators.ts:7-10 | Passes exactly when some character is one of `!@#$%^&*`. |
| `Validators.PasswordChecksMonotone` | frontend/src/utils/validators.ts:3-11 | Appending a character never makes a password check fail. |
| `Validators.EmailRequired` | frontend/src/utils/validators.ts:14 | Passes exactly for a non-empty string. |
| `Validators.EmailValid` | frontend/src/utils/validators.ts:15-16 | An accepted address neither starts nor ends with `@`. |
| `Validators.EmailValidMatchesShape` | frontend/src/utils/validators.ts:15-16 | The check accepts exactly strings `L@D`. `L` is non-empty with no `@` or whitespace. `D` has no `@` or whitespace and holds a `.` that is neither its first nor its last character. |
| `Validators.EmailValidSingleAt` | frontend/src/utils/validators.ts:16 | Every accepted address contains exactly one `@`. |

## Left out

- Redis, the database session and RabbitMQ are not connections here. The stores are values
  passed in and returned. `backend/app/services/notifications.py` is not part of this model.
- Commit and rollback are explicit snapshots. Checkout's first commit stores the order row on
  its own. A failure while writing the lines keeps that row; this is what the handler does. A
  rolled-back insert still spends the key its serial sequence handed out.
- Concurrency is not modelled. Two checkouts of one cart, or two couriers accepting one order,
  are races; the model runs one request at a time.
- bcrypt and JWT are function parameters with one law each (`SoundHasher`, `SoundJwt`), not
  implementations. The random salt of bcrypt is inside the hash function.
- Wall-clock time is an integer minute count passed in (`now`). `created_at`'s server default
  is that value.
- Floating-point money is integer minor units: `Dish.price`, `Order.total`,
  `price_at_order` and the frontend total.
- `app.core.security` is not part of this model. The routers import `get_current_user` and the
  password helpers from it. The handlers' caller is a `Principal` (id and role), which is what
  they read from that dependency.
- `backend/app/services/auth.py` uses `Depends`, `oauth2_scheme`, `Session`, `get_db` and
  `JWTError` without importing them. `backend/app/api/v1/cart.py` uses `Path` without
  importing it. The model gives these names their evident meaning.
- The configured 30-minute token lifetime (`backend/app/core/config.py:16`) is never read by
  `create_access_token`. The model keeps the coded 15 minutes.
- `Decimal.Parse` reads only canonical decimal text, while Python's `int()` also accepts
  spaces, `+`, underscores and leading zeros. The two agree on everything Redis stores here,
  since HINCRBY writes canonical text and cart fields are written from integers.
- `OrdersApi.CreateOrder`: the order of `cart.items()` is the parameter `keys`, required to
  list each field once. Redis does not fix that order.
- `OrdersApi.CreateOrder`: a foreign-key failure on `orders.user_id` is modelled as 404 with
  nothing stored. Which database error text is shown is not modelled.
- `OrdersApi.CommitOrder` does not check the 32-bit range of `orders.id` and
  `orders.user_id`: both come from the database's own serial keys. `OrdersApi.CommitLines`
  does check the range of each line's `dish_id` and `quantity`, since a cart count can reach
  the 64-bit limit of HINCRBY.
- `CartService.DecodeCart` and `CartApi.ViewCart` require a
  well-formed store (every field and value an integer, as the cart endpoints leave it). A
  hash written by some other client is not modelled.
- FastAPI's validation of `Path(gt=0)` answers 422. That is what the handlers' declarations
  produce, not the 400 a reader of the documentation strings might expect.
- `CartApi.AddToCartEndpoint`, `CouriersApi.AcceptOrder` and `CouriersApi.AcceptOrderAsWritten`
  reduce that 422 body to one detail string, pydantic version 1's message
  `Http.NotGreaterThanZero`. The real body is a list of error objects, each with the
  parameter's location, that message and the type `value_error.number.not_gt`.
- `UserRepository.GetUsers`: a negative `skip` or `limit` is excluded by the `nat` type, not
  modelled.
- `UserRepository.UpdateUser` takes a patch of the four columns. `setattr` on any other key of
  the dict is not modelled.
- `EmailStr.Normalize` covers only what `EmailStr` does to an address it accepts, and only for
  ASCII: whitespace other than space and `\t` to `\r` is not stripped, and letters outside
  `A`-`Z` are not lower-cased. The validation itself (a 422 for a malformed address) and the
  `Name <address>` form are not modelled.
- AvailableOrdersKeepOrder (in `CouriersApi`) states the order the model gives the listing. The
  query has no `ORDER BY`, so the database promises no order at all.
- `CouriersApi.AvailableOrders` and `UserRepository.GetUsers` list rows in storage order, which
  the model fixes. Neither query has an `ORDER BY`, so the real rows may come in any order, and
  the pages of `GetUsers` may overlap or skip rows between calls.
- The `OrderItem` surrogate key and the SQLAlchemy relationships are not modelled.
- `CartStore.Checkout`: the `localStorage` persistence and the HTTP client are left out. The
  submission is a parameter saying whether the post resolved. The frontend posts to `/orders`
  while the backend route is `/orders/create`; the model does not connect the two.
- `frontend/src/validators/index.ts` is not part of this model. Its 6-character minimum
  conflicts with the 8-character one modelled here.
- The JavaScript regular expressions run over UTF-16 code units, and the model's strings are
  sequences of Unicode scalar values. For these character classes the two agree: a surrogate
  half is never in `[A-Z]`, `[0-9]`, `[!@#$%^&*]`, `\s` or `@`. `Validators.Utf16Length` models
  the one place where the count differs.
- The users endpoints, the restaurants endpoints and the other frontend stores, composables,
  router and API clients are thin wrappers and are not modelled.

## Findings

| source | as written | input that shows it | evidently intended | confidence | as-written member | corrected member |
|---|---|---|---|---|---|---|
| backend/app/api/v1/couriers.py:131 | The handler sets `order.courier_id`, but `orders` declares no `courier_id` column (backend/app/db/models/order.py:6-17). The assignment lands on the Python object only, and nothing of it is stored. | Courier 7 accepts paid order 1. The stored row afterwards does not mention courier 7, and is the same as if courier 8 had accepted. | The accepting courier is recorded on the order, as the handler's documentation says. | not executed | `CouriersApi.AcceptOrderAsWritten`, exhibited by `CouriersApi.AcceptOrderAsWrittenForgetsCourier` | `CouriersApi.AcceptOrder`, proved by `CouriersApi.AcceptOrderDistinguishesCouriers` |
| backend/app/services/auth.py:34 | `authenticate_user` awaits `get_user_by_email`, which is a plain function returning a `User` or `None`. Awaiting either raises `TypeError`. | Any registered email with its correct password: awaiting the coroutine raises `TypeError` instead of returning the user. No caller in the repository awaits it, so this surfaces only once one does; the model reports it as a 500. | Call the lookup without `await`, then apply the 401 check. | not executed | `AuthService.AuthenticateUserAsWritten`, exhibited by `AuthService.AuthenticateUserAsWrittenRejectsValidCredentials` | `AuthService.AuthenticateUser`, proved by `AuthService.AuthenticateUserAsWrittenRejectsValidCredentials` |
| backend/app/api/v1/auth.py:108 | Login looks up the form's `username` verbatim. Registration stores the address as `EmailStr` normalised it (backend/app/schemas/user.py:5): stripped, and lower-cased from the first `@` on. | Register `bob@Example.com`: the row holds `bob@example.com`. Logging in as `bob@Example.com` with the same password then gets 400 "Incorrect email or password". | Normalise the login name the same way before the lookup. | not executed | `AuthApi.LoginAsWritten`, exhibited by `AuthApi.RegisterThenLoginAsWrittenFails` with `EmailStr.NormalizeExample` | `AuthApi.Login`, proved by `AuthApi.RegisterThenLogin` |
| backend/app/api/v1/couriers.py:24 | The route declares `response_model=List[Dict[str, Any]]` but returns `Order` ORM objects (lines 68-69). An ORM object is not a dict, so FastAPI's response validation fails and the client gets 500. | A courier lists orders while order 1 is `paid`: 500 instead of a list holding order 1. With no `paid` order the answer is `[]`. | The `paid` orders are returned, as the route's description and example show. | not executed | `CouriersApi.AvailableOrdersAsWritten`, exhibited by `CouriersApi.AvailableOrdersAsWrittenFailsOnPaid` | `CouriersApi.AvailableOrders`, proved by `CouriersApi.AvailableOrdersAsWrittenFailsOnPaid` and `CouriersApi.AvailableOrdersKeepOrder` |

=== FILE: auth_api.dfy ===
/** The `/auth` endpoints: registration and login, each answering with a bearer token. */
module AuthApi {
  import opened Wrappers
  import opened Http
  import opened UserModel
  import opened Database
  import opened Crypto
  import opened UserRepository
  import opened AuthService
  import opened EmailStr

  /** The `Token` response model. */
  datatype Token = Token(accessToken: string, tokenType: string)

  const Bearer: string := "bearer"

  /** The claims both endpoints sign: the email as subject. */
  function SubjectClaims(email: string): (c: Claims)
    ensures c.Keys == {"sub"} && c["sub"] == Text(email)
    ensures forall now :: Acceptable(c, now)
  {
    map["sub" := Text(email)]
  }

  /**
   * POST /auth/register. The body's `EmailStr` hands the handler the normalised address
   * (`Normalize`), and that is what is looked up, stored and signed: 400 when it is taken (and
   * nothing is created); otherwise a new `customer` and a token for it with the default lifetime.
   */
  function Register(db: Db, h: Hasher, j: Jwt, email: string, password: string, now: int)
    : (r: Outcome<Response<Token>>)
    ensures (exists i :: 0 <= i < |db.users| && db.users[i].email == Normalize(email))
            <==> r == Outcome(Fail(BadRequest, "Email already registered"), db)
    ensures (forall i :: 0 <= i < |db.users| ==> db.users[i].email != Normalize(email)) ==> r.value.Success?
    ensures r.value.Success? ==>
              && r.value.body == Token(CreateAccessToken(j, SubjectClaims(Normalize(email)), None, now), Bearer)
              && r.db == db.(users := db.users + [User(db.nextUserId, Normalize(email), h.hash(password), Customer, None)],
                             nextUserId := db.nextUserId + 1)
  {
    var e := Normalize(email);
    if GetUserByEmail(db, e).Some? then
      Outcome(Fail(BadRequest, "Email already registered"), db)
    else
      var created := CreateUser(db, h, e, password, None);
      Outcome(Success(Token(CreateAccessToken(j, SubjectClaims(created.value.value.email), None, now), Bearer)),
              created.db)
  }

  /**
   * POST /auth/login as written: the form's `username` is a plain string, looked up verbatim as
   * an email; 400 unless that user exists and the password verifies against the stored hash;
   * otherwise a token for the email.
   */
  function LoginAsWritten(db: Db, h: Hasher, j: Jwt, username: string, password: string, now: int)
    : (r: Response<Token>)
    ensures r.Fail? ==> r == Fail(BadRequest, "Incorrect email or password")
    ensures r.Success? <==> GetUserByEmail(db, username).Some?
                            && h.verify(password, GetUserByEmail(db, username).value.passwordHash)
    ensures r.Success? ==> r.body == Token(CreateAccessToken(j, SubjectClaims(username), None, now), Bearer)
  {
    match GetUserByEmail(db, username)
    case None => Fail(BadRequest, "Incorrect email or password")
    case Some(u) =>
      if !h.verify(password, u.passwordHash) then Fail(BadRequest, "Incorrect email or password")
      else Success(Token(CreateAccessToken(j, SubjectClaims(u.email), None, now), Bearer))
  }

  /**
   * POST /auth/login as registration evidently intends: the `username` is normalised the way
   * registration normalised the stored address before it is looked up.
   */
  function Login(db: Db, h: Hasher, j: Jwt, username: string, password: string, now: int): (r: Response<Token>)
    ensures r.Fail? ==> r == Fail(BadRequest, "Incorrect email or password")
    ensures r.Success? <==> GetUserByEmail(db, Normalize(username)).Some?
                            && h.verify(password, GetUserByEmail(db, Normalize(username)).value.passwordHash)
    ensures r.Success? ==>
              r.body == Token(CreateAccessToken(j, SubjectClaims(Normalize(username)), None, now), Bearer)
    ensures Normalize(username) == username ==> r == LoginAsWritten(db, h, j, username, password, now)
  {
    LoginAsWritten(db, h, j, Normalize(username), password, now)
  }

  /** A second registration of the same address, up to normalisation, fails and changes nothing. */
  lemma RegisterTwiceRejected(db: Db, h: Hasher, j: Jwt, email: string, email2: string, p1: string, p2: string,
                              now: int, later: int)
    requires Register(db, h, j, email, p1, now).value.Success?
    requires Normalize(email2) == Normalize(email)
    ensures var db' := Register(db, h, j, email, p1, now).db;
            Register(db', h, j, email2, p2, later) == Outcome(Fail(BadRequest, "Email already registered"), db')
  {
    var db' := Register(db, h, j, email, p1, now).db;
    assert db'.users[|db.users|].email == Normalize(email2);
  }

  /** Registration keeps emails and keys unique. */
  lemma RegisterKeepsValid(db: Db, h: Hasher, j: Jwt, email: string, password: string, now: int)
    requires Valid(db)
    ensures Valid(Register(db, h, j, email, password, now).db)
  {
    if Register(db, h, j, email, password, now).value.Success? {
      CreateUserKeepsValid(db, h, Normalize(email), password, None);
    }
  }

  /** After registering, logging in with the same email, as typed, and password succeeds. */
  lemma RegisterThenLogin(db: Db, h: Hasher, j: Jwt, email: string, password: string, now: int, later: int)
    requires SoundHasher(h) && Valid(db)
    requires Register(db, h, j, email, password, now).value.Success?
    ensures Login(Register(db, h, j, email, password, now).db, h, j, email, password, later).Success?
  {
    var db' := Register(db, h, j, email, password, now).db;
    RegisterKeepsValid(db, h, j, email, password, now);
    GetUserByEmailFindsOwner(db', Normalize(email), |db.users|);
  }

  /**
   * The login as written turns away an address registered as typed whenever normalising
   * changed it (for instance `bob@Example.com`, stored as `bob@example.com`) and no other user
   * holds the address verbatim.
   */
  lemma RegisterThenLoginAsWrittenFails(db: Db, h: Hasher, j: Jwt, email: string, password: string,
                                        now: int, later: int)
    requires Register(db, h, j, email, password, now).value.Success?
    requires Normalize(email) != email
    requires forall i :: 0 <= i < |db.users| ==> db.users[i].email != email
    ensures LoginAsWritten(Register(db, h, j, email, password, now).db, h, j, email, password, later)
            == Fail(BadRequest, "Incorrect email or password")
  {
    var db' := Register(db, h, j, email, password, now).db;
    assert forall i :: 0 <= i < |db'.users| ==> db'.users[i].email != email by {
      forall i | 0 <= i < |db'.users| ensures db'.users[i].email != email {
        if i < |db.users| {
          assert db'.users[i] == db.users[i];
        }
      }
    }
  }

  /**
   * The token registration returns authenticates the new user for the default fifteen
   * minutes: until then it resolves to exactly the registered row.
   */
  lemma RegisterTokenAuthenticates(db: Db, h: Hasher, j: Jwt, email: string, password: string, now: int, later: int)
    requires SoundJwt(j) && Valid(db)
    requires Register(db, h, j, email, password, now).value.Success?
    requires now <= later <= now + DefaultExpiryMinutes
    ensures var r := Register(db, h, j, email, password, now);
            GetCurrentUser(j, r.db, r.value.body.accessToken, later)
            == Success(User(db.nextUserId, Normalize(email), h.hash(password), Customer, None))
  {
    var r := Register(db, h, j, email, password, now);
    RegisterKeepsValid(db, h, j, email, password, now);
    var claims := TokenClaims(SubjectClaims(Normalize(email)), None, now);
    assert Acceptable(claims, later);
    assert j.decode(r.value.body.accessToken, later) == Some(claims);
    GetUserByEmailFindsOwner(r.db, Normalize(email), |db.users|);
  }

  /** A token from a successful login resolves to the user who logged in, within its lifetime. */
  lemma LoginTokenAuthenticates(db: Db, h: Hasher, j: Jwt, email: string, password: string, now: int, later: int)
    requires SoundJwt(j)
    requires Login(db, h, j, email, password, now).Success?
    requires now <= later <= now + DefaultExpiryMinutes
    ensures GetCurrentUser(j, db, Login(db, h, j, email, password, now).body.accessToken, later)
            == Success(GetUserByEmail(db, Normalize(email)).value)
  {
    var claims := TokenClaims(SubjectClaims(Normalize(email)), None, now);
    assert Acceptable(claims, later);
  }
}

=== FILE: auth_service.dfy ===
/** Token issue and the checks that turn a bearer token or a password into a user. */
module AuthService {
  import opened Wrappers
  import opened Http
  import opened UserModel
  import opened Database
  import opened Crypto
  import opened UserRepository

  /** The lifetime a token gets when the caller supplies none (the configured 30 is not consulted). */
  const DefaultExpiryMinutes: int := 15

  /**
   * The payload `create_access_token` signs: a copy of `data` with `exp` set. A lifetime that
   * is absent or zero (a zero `timedelta` is falsy) falls back to the default.
   */
  function TokenClaims(data: Claims, expiresDelta: Option<int>, now: int): (c: Claims)
    ensures c.Keys == data.Keys + {"exp"}
    ensures forall k :: k in data && k != "exp" ==> c[k] == data[k]
    ensures expiresDelta.Some? && expiresDelta.value != 0 ==> c["exp"] == Time(now + expiresDelta.value)
    ensures expiresDelta.None? || expiresDelta.value == 0 ==> c["exp"] == Time(now + 15)
  {
    var lifetime := if expiresDelta.Some? && expiresDelta.value != 0 then expiresDelta.value else DefaultExpiryMinutes;
    data["exp" := Time(now + lifetime)]
  }

  /** `create_access_token`: the signed payload, which decodes back to it until it expires. */
  function CreateAccessToken(j: Jwt, data: Claims, expiresDelta: Option<int>, now: int): (t: string)
    ensures SoundJwt(j) ==>
              forall later :: Acceptable(TokenClaims(data, expiresDelta, now), later) ==>
                j.decode(t, later) == Some(TokenClaims(data, expiresDelta, now))
  {
    j.encode(TokenClaims(data, expiresDelta, now))
  }

  const InvalidCredentials: string := "Неверные учетные данные"
  const CouldNotValidate: string := "Не удалось подтвердить учетные данные"

  /**
   * `authenticate_user` as written: it awaits `get_user_by_email`, a plain function, so the
   * `await` is applied to a `User` or to `None`; both raise `TypeError` whatever the
   * credentials. Nothing in the repository awaits this coroutine; the 500 here is what a
   * FastAPI caller that did would answer.
   */
  function AuthenticateUserAsWritten(db: Db, h: Hasher, email: string, password: string): (r: Response<User>)
    ensures r.Fail? && r.code == InternalError
  {
    if GetUserByEmail(db, email).None? then Fail(InternalError, "object NoneType can't be used in 'await' expression")
    else Fail(InternalError, "object User can't be used in 'await' expression")
  }

  /** `authenticate_user` as intended: the user with that email whose hash the password verifies against; else 401. */
  function AuthenticateUser(db: Db, h: Hasher, email: string, password: string): (r: Response<User>)
    ensures r.Fail? ==> r == Fail(Unauthorized, InvalidCredentials)
    ensures r.Success? ==> r.body in db.users && r.body.email == email && h.verify(password, r.body.passwordHash)
    ensures (forall i :: 0 <= i < |db.users| ==> db.users[i].email != email) ==> r.Fail?
    ensures r.Success? <==> GetUserByEmail(db, email).Some?
                            && h.verify(password, GetUserByEmail(db, email).value.passwordHash)
    ensures r.Success? ==> r.body == GetUserByEmail(db, email).value
  {
    match GetUserByEmail(db, email)
    case None => Fail(Unauthorized, InvalidCredentials)
    case Some(u) => if h.verify(password, u.passwordHash) then Success(u) else Fail(Unauthorized, InvalidCredentials)
  }

  /** The discrepancy: for a registered user presenting the right password the intended check succeeds, the written one fails. */
  lemma AuthenticateUserAsWrittenRejectsValidCredentials(db: Db, h: Hasher, i: int, password: string)
    requires SoundHasher(h) && UniqueEmails(db.users)
    requires 0 <= i < |db.users| && db.users[i].passwordHash == h.hash(password)
    ensures AuthenticateUser(db, h, db.users[i].email, password) == Success(db.users[i])
    ensures AuthenticateUserAsWritten(db, h, db.users[i].email, password).Fail?
  {
    GetUserByEmailFindsOwner(db, db.users[i].email, i);
  }

  /**
   * `get_current_user`: 401 when the token does not decode (bad signature, expired), when the
   * payload has no `sub`, or when no user has that email; otherwise that user.
   */
  function GetCurrentUser(j: Jwt, db: Db, token: string, now: int): (r: Response<User>)
    ensures r.Fail? ==> r == Fail(Unauthorized, CouldNotValidate)
    ensures j.decode(token, now).None? ==> r.Fail?
    ensures j.decode(token, now).Some? && "sub" !in j.decode(token, now).value ==> r.Fail?
    ensures (&& j.decode(token, now).Some? && "sub" in j.decode(token, now).value
             && j.decode(token, now).value["sub"].Text?
             && exists i :: 0 <= i < |db.users| && db.users[i].email == j.decode(token, now).value["sub"].text)
            ==> r.Success?
    ensures r.Success? ==>
              && r.body in db.users
              && j.decode(token, now).Some? && "sub" in j.decode(token, now).value
              && j.decode(token, now).value["sub"] == Text(r.body.email)
  {
    match j.decode(token, now)
    case None => Fail(Unauthorized, CouldNotValidate)
    case Some(payload) =>
      if "sub" !in payload then Fail(Unauthorized, CouldNotValidate)
      else
        match payload["sub"]
        // python-jose itself refuses a subject that is not text
        case Time(_) => Fail(Unauthorized, CouldNotValidate)
        case Text(email) =>
          match GetUserByEmail(db, email)
          case None => Fail(Unauthorized, CouldNotValidate)
          case Some(u) => Success(u)
  }
}

=== FILE: cart_api.dfy ===
/** The `/cart` endpoints: add a dish (with FastAPI's path-parameter guards) and view the cart. */
module CartApi {
  import opened Wrappers
  import opened Decimal
  import opened Redis
  import opened CartService
  import opened Http

  /** The status the add handler answers for an exception escaping the service. */
  function ExceptionStatus(e: Exception): (code: int)
    ensures e.ValueError? <==> code == BadRequest
    ensures e.OtherError? <==> code == NotFound
  {
    match e
    case ValueError(_) => BadRequest
    case OtherError(_) => NotFound
  }

  /** A Redis error reply reaches the handler as the client's `ResponseError`, which is not a `ValueError`. */
  function ReplyException(e: ReplyError): (x: Exception)
    ensures !x.ValueError?
  {
    match e
    case NotAnInteger => OtherError("value is not an integer or out of range")
    case Overflow => OtherError("increment or decrement would overflow")
  }

  /** A handler's answer together with the store it leaves behind. */
  datatype CartReply<+T> = CartReply(response: Response<T>, store: Store)

  /**
   * POST /cart/add/{dish_id}/{quantity}. Both path parameters are declared `gt=0`, so FastAPI
   * answers 422 before the handler runs; otherwise the caller's cart is incremented.
   */
  function AddToCartEndpoint(st: Store, caller: Principal, dishId: int, quantity: int): (r: CartReply<string>)
    ensures dishId <= 0 || quantity <= 0 ==> r.response.Fail? && r.response.code == Unprocessable
    ensures r.response.Fail? ==> r.store == st
    ensures r.response.Success? ==> dishId > 0 && quantity > 0
    ensures r.response.Success? ==> Count(r.store, caller.id, dishId) == Count(st, caller.id, dishId) + quantity
    ensures dishId > 0 && quantity > 0 && r.response.Fail? ==> r.response.code == NotFound
    ensures WellFormed(st) && dishId > 0 && quantity > 0 ==>
              (r.response.Success? <==> InInt64(quantity) && InInt64(Count(st, caller.id, dishId) + quantity))
  {
    if dishId <= 0 || quantity <= 0 then
      CartReply(Fail(Unprocessable, NotGreaterThanZero), st)
    else
      match AddToCart(st, caller.id, dishId, quantity)
      case Ok(st') => CartReply(Success("Dish added to cart"), st')
      case Err(e) =>
        var ex := ReplyException(e);
        CartReply(Fail(ExceptionStatus(ex), ex.message), st)
  }

  /** A successful add touches the caller's cart only and keeps every count positive and well formed. */
  lemma AddToCartEndpointInvariant(st: Store, caller: Principal, dishId: int, quantity: int)
    requires WellFormed(st) && PositiveCounts(st)
    ensures WellFormed(AddToCartEndpoint(st, caller, dishId, quantity).store)
    ensures PositiveCounts(AddToCartEndpoint(st, caller, dishId, quantity).store)
    ensures forall v :: v != caller.id ==>
              GetCart(AddToCartEndpoint(st, caller, dishId, quantity).store, v) == GetCart(st, v)
  {
    var r := AddToCartEndpoint(st, caller, dishId, quantity);
    if r.response.Success? {
      AddToCartWellFormed(st, caller.id, dishId, quantity);
      AddToCartKeepsPositive(st, caller.id, dishId, quantity);
      forall v | v != caller.id ensures GetCart(r.store, v) == GetCart(st, v) {
        AddToCartFrame(st, caller.id, dishId, quantity, v, dishId);
      }
    }
  }

  /** GET /cart: the caller's cart as integers; it changes nothing. */
  function ViewCart(st: Store, caller: Principal): (m: map<int, int>)
    requires WellFormed(st)
    ensures forall d :: d in m ==> m[d] == Count(st, caller.id, d)
    ensures forall d :: d !in m ==> Count(st, caller.id, d) == 0
    ensures forall d :: d in m <==> Show(d) in GetCart(st, caller.id)
  {
    DecodedCartMatchesCounts(st, caller.id);
    DecodeCart(GetCart(st, caller.id))
  }
}

=== FILE: cart_service.dfy ===
/**
 * The server-side cart (`CartService`): one Redis hash per user at key `cart:{user_id}`,
 * mapping the decimal text of a dish id to the decimal text of its count.
 */
module CartService {
  import opened Wrappers
  import opened Decimal
  import opened Redis

  /** The Redis key of a user's cart: the `cart:` prefix, then a decimal that reads back as the user id. */
  function CartKey(userId: int): (k: string)
    ensures |k| > 5 && k[..5] == "cart:"
    ensures Parse(k[5..]) == Some(userId)
  {
    ParseShow(userId);
    assert ("cart:" + Show(userId))[5..] == Show(userId);
    "cart:" + Show(userId)
  }

  /** Different users never share a cart key. */
  lemma CartKeyInjective(u: int, v: int)
    ensures CartKey(u) == CartKey(v) ==> u == v
  {
    if CartKey(u) == CartKey(v) {
      assert CartKey(u)[5..] == Show(u);
      assert CartKey(v)[5..] == Show(v);
      ShowInjective(u, v);
    }
  }

  lemma CartKeysDistinct()
    ensures forall u, v :: CartKey(u) == CartKey(v) ==> u == v
  {
    forall u, v ensures CartKey(u) == CartKey(v) ==> u == v {
      CartKeyInjective(u, v);
    }
  }

  /** A cart hash as HINCRBY leaves it: dish-id fields and 64-bit integer counts, all canonical text. */
  predicate WellFormedCart(h: Hash) {
    IntegerHash(h) && forall f :: f in h ==> Parse(f).Some?
  }

  predicate WellFormed(st: Store) {
    forall k :: k in st ==> WellFormedCart(st[k])
  }

  /** The count of dish `d` in user `u`'s cart, a missing entry counting as 0. */
  function Count(st: Store, u: int, d: int): int {
    var h := HGetAll(st, CartKey(u));
    if Show(d) in h && Parse(h[Show(d)]).Some? then Parse(h[Show(d)]).value else 0
  }

  /**
   * `add_to_cart`: HINCRBY on the user's cart. No check on the sign of `q` or on the dish
   * existing; only Redis's 64-bit limits can make it fail.
   */
  function AddToCart(st: Store, u: int, d: int, q: int): (r: Result<Store, ReplyError>)
    ensures r.Ok? ==> Count(r.value, u, d) == Count(st, u, d) + q
    ensures WellFormed(st) ==> (r.Ok? <==> InInt64(q) && InInt64(Count(st, u, d) + q))
  {
    HIncrBy(st, CartKey(u), Show(d), q)
  }

  /** An add changes the count of `(u, d)` only: other dishes and other users keep theirs. */
  lemma AddToCartFrame(st: Store, u: int, d: int, q: int, u': int, d': int)
    requires AddToCart(st, u, d, q).Ok?
    requires u' != u || d' != d
    ensures Count(AddToCart(st, u, d, q).value, u', d') == Count(st, u', d')
    ensures u' != u ==> HGetAll(AddToCart(st, u, d, q).value, CartKey(u')) == HGetAll(st, CartKey(u'))
  {
    CartKeyInjective(u, u');
    ShowInjective(d, d');
  }

  /** Adds keep every hash well formed. */
  lemma AddToCartWellFormed(st: Store, u: int, d: int, q: int)
    requires WellFormed(st)
    requires AddToCart(st, u, d, q).Ok?
    ensures WellFormed(AddToCart(st, u, d, q).value)
  {
    ParseShow(d);
    var r := AddToCart(st, u, d, q).value;
    var key := CartKey(u);
    forall k | k in r ensures WellFormedCart(r[k]) {
      if k == key {
        var h := r[k];
        forall f | f in h ensures Parse(f).Some? && Parse(h[f]).Some? && InInt64(Parse(h[f]).value) {
          if f != Show(d) {
            assert f in HGetAll(st, key) && h[f] == st[key][f];
          }
        }
      } else {
        assert HGetAll(r, k) == HGetAll(st, k);
      }
    }
  }

  /** `get_cart`: the user's whole hash as text (empty when the user has none); it changes nothing. */
  function GetCart(st: Store, u: int): (h: Hash)
    ensures forall d :: Show(d) !in h ==> Count(st, u, d) == 0
    ensures CartKey(u) !in st ==> h == map[]
  {
    HGetAll(st, CartKey(u))
  }

  /** Distinct fields of a well-formed cart name distinct dishes. */
  lemma FieldsNameDistinctDishes(h: Hash)
    requires WellFormedCart(h)
    ensures forall f, g :: f in h && g in h && Parse(f) == Parse(g) ==> f == g
  {
    forall f, g | f in h && g in h && Parse(f) == Parse(g) ensures f == g {
      ParseInjective(f, g);
    }
  }

  /** The integer view of a well-formed cart hash (what FastAPI's `Dict[int, int]` model yields). */
  function DecodeCart(h: Hash): (m: map<int, int>)
    requires WellFormedCart(h)
    ensures forall f :: f in h ==> Parse(f).value in m && m[Parse(f).value] == Parse(h[f]).value
  {
    FieldsNameDistinctDishes(h);
    map f | f in h :: Parse(f).value := Parse(h[f]).value
  }

  /** Every dish of the integer view comes from a field spelling that dish. */
  lemma DecodeCartDomain(h: Hash, d: int)
    requires WellFormedCart(h)
    ensures d in DecodeCart(h) <==> Show(d) in h
  {
    ParseShow(d);
    if d in DecodeCart(h) {
      var f :| f in h && Parse(f).value == d;
      ShowParse(f);
    }
  }

  /** Reading a cart and converting its text back to integers recovers exactly the stored counts. */
  lemma GetCartRoundTrip(st: Store, u: int, d: int)
    requires WellFormed(st)
    ensures WellFormedCart(GetCart(st, u))
    ensures d in DecodeCart(GetCart(st, u)) <==> Show(d) in GetCart(st, u)
    ensures d in DecodeCart(GetCart(st, u)) ==> DecodeCart(GetCart(st, u))[d] == Count(st, u, d)
  {
    ParseShow(d);
    DecodeCartDomain(GetCart(st, u), d);
  }

  /** The integer view of a user's cart holds exactly the dishes with a stored entry, at their stored counts. */
  lemma DecodedCartMatchesCounts(st: Store, u: int)
    requires WellFormed(st)
    ensures WellFormedCart(GetCart(st, u))
    ensures forall d :: d in DecodeCart(GetCart(st, u)) <==> Show(d) in GetCart(st, u)
    ensures forall d :: d in DecodeCart(GetCart(st, u)) ==> DecodeCart(GetCart(st, u))[d] == Count(st, u, d)
  {
    forall d ensures d in DecodeCart(GetCart(st, u)) <==> Show(d) in GetCart(st, u) {
      GetCartRoundTrip(st, u, d);
    }
    forall d | d in DecodeCart(GetCart(st, u)) ensures DecodeCart(GetCart(st, u))[d] == Count(st, u, d) {
      GetCartRoundTrip(st, u, d);
    }
  }

  /** `clear_cart`: DEL of the user's key. */
  function ClearCart(st: Store, u: int): (r: Store)
    ensures GetCart(r, u) == map[]
    ensures forall d :: Count(r, u, d) == 0
    ensures forall v :: v != u ==> GetCart(r, v) == GetCart(st, v)
  {
    CartKeysDistinct();
    Del(st, CartKey(u))
  }

  /** Every stored count is positive. */
  predicate PositiveCounts(st: Store) {
    forall k, f :: k in st && f in st[k] ==> Parse(st[k][f]).Some? && Parse(st[k][f]).value > 0
  }

  /** Adding a positive quantity keeps every stored count positive. */
  lemma AddToCartKeepsPositive(st: Store, u: int, d: int, q: int)
    requires PositiveCounts(st)
    requires q > 0
    requires AddToCart(st, u, d, q).Ok?
    ensures PositiveCounts(AddToCart(st, u, d, q).value)
  {
    var r := AddToCart(st, u, d, q).value;
    var key := CartKey(u);
    forall k, f | k in r && f in r[k]
      ensures Parse(r[k][f]).Some? && Parse(r[k][f]).value > 0
    {
      if k == key && f == Show(d) {
        assert FieldValue(HGetAll(st, key), f).value >= 0;
      }
    }
  }
}

=== FILE: cart_store.dfy ===
/**
 * The browser-side cart: an ordered list of lines, each a dish and a quantity, kept by the
 * client and sent to the backend at checkout. Prices are integers in minor units.
 */
module CartStore {
  import opened Wrappers
  import opened Seqs

  /** The dish as the store keeps it. */
  datatype Dish = Dish(id: int, name: string, description: string, price: int)

  /** One cart line. */
  datatype CartItem = CartItem(dish: Dish, quantity: int)

  const DefaultQuantity: int := 1

  /** No two lines are for the same dish. */
  predicate DistinctIds(items: seq<CartItem>) {
    forall i, j :: 0 <= i < j < |items| ==> items[i].dish.id != items[j].dish.id
  }

  /** Line `j` is the first line for dish `id` (what `Array.find` returns). */
  predicate FirstFor(items: seq<CartItem>, id: int, j: int)
    requires 0 <= j < |items|
  {
    items[j].dish.id == id && forall k :: 0 <= k < j ==> items[k].dish.id != id
  }

  /** The first line for dish `id`. */
  function FindLine(items: seq<CartItem>, id: int): (r: Option<nat>)
    ensures r.Some? ==> r.value < |items| && FirstFor(items, id, r.value)
    ensures r.None? <==> forall j :: 0 <= j < |items| ==> items[j].dish.id != id
  {
    FindFirst(items, (it: CartItem) => it.dish.id == id)
  }

  /** `isEmpty`: no line at all, so no dish can be found in the cart. */
  predicate IsEmpty(items: seq<CartItem>): (b: bool)
    ensures b <==> forall id :: FindLine(items, id).None?
  {
    if |items| == 0 then true
    else
      assert FindLine(items, items[0].dish.id).Some?;
      false
  }

  /** What one line adds to the total. */
  function LineTotal(it: CartItem): int {
    it.dish.price * it.quantity
  }

  /** `total`: the left fold of price times quantity over the lines. */
  function Total(items: seq<CartItem>): (t: int)
    ensures |items| == 0 ==> t == 0
    ensures |items| == 1 ==> t == items[0].dish.price * items[0].quantity
  {
    if |items| == 0 then 0 else Total(items[..|items| - 1]) + LineTotal(items[|items| - 1])
  }

  /** The total splits over concatenation: it is the sum of the line totals, whatever the grouping. */
  lemma {:induction false} TotalAppend(a: seq<CartItem>, b: seq<CartItem>)
    ensures Total(a + b) == Total(a) + Total(b)
  {
    if |b| == 0 {
      assert a + b == a;
    } else {
      assert (a + b)[..|a + b| - 1] == a + b[..|b| - 1];
      TotalAppend(a, b[..|b| - 1]);
    }
  }

  /** Replacing one line changes the total by the difference of the two line totals. */
  lemma TotalUpdate(items: seq<CartItem>, i: int, it: CartItem)
    requires 0 <= i < |items|
    ensures Total(items[i := it]) == Total(items) - LineTotal(items[i]) + LineTotal(it)
  {
    assert items == items[..i] + [items[i]] + items[i + 1..];
    assert items[i := it] == items[..i] + [it] + items[i + 1..];
    TotalAppend(items[..i] + [items[i]], items[i + 1..]);
    TotalAppend(items[..i], [items[i]]);
    TotalAppend(items[..i] + [it], items[i + 1..]);
    TotalAppend(items[..i], [it]);
  }

  /** The `reduce` loop behind `total`, accumulating from the first line. */
  method ComputeTotal(items: seq<CartItem>) returns (sum: int)
    ensures sum == Total(items)
    ensures (forall i :: 0 <= i < |items| ==> items[i].dish.price >= 0 && items[i].quantity >= 0) ==> sum >= 0
  {
    sum := 0;
    var i := 0;
    while i < |items|
      invariant 0 <= i <= |items|
      invariant sum == Total(items[..i])
      invariant (forall k :: 0 <= k < |items| ==> items[k].dish.price >= 0 && items[k].quantity >= 0) ==> sum >= 0
    {
      assert items[..i + 1][..i] == items[..i];
      sum := sum + items[i].dish.price * items[i].quantity;
      i := i + 1;
    }
    assert items[..i] == items;
  }

  /**
   * `addItem`: a dish already in the cart has `quantity` (default 1) added to its first line,
   * which keeps its own dish data, and the number of lines stays the same; a new dish is
   * appended as one line at the end.
   */
  function AddItem(items: seq<CartItem>, dish: Dish, quantity: Option<int>): (r: seq<CartItem>)
    ensures var q := quantity.GetOr(DefaultQuantity);
            (exists j :: 0 <= j < |items| && items[j].dish.id == dish.id) ==>
              && |r| == |items|
              && forall j :: 0 <= j < |items| ==>
                   r[j] == (if FirstFor(items, dish.id, j) then items[j].(quantity := items[j].quantity + q) else items[j])
    ensures (forall j :: 0 <= j < |items| ==> items[j].dish.id != dish.id) ==>
              r == items + [CartItem(dish, quantity.GetOr(DefaultQuantity))]
  {
    var q := quantity.GetOr(DefaultQuantity);
    match FindLine(items, dish.id)
    case Some(i) => items[i := items[i].(quantity := items[i].quantity + q)]
    case None => items + [CartItem(dish, q)]
  }

  /** Adding keeps dish ids pairwise distinct. */
  lemma AddItemKeepsDistinct(items: seq<CartItem>, dish: Dish, quantity: Option<int>)
    requires DistinctIds(items)
    ensures DistinctIds(AddItem(items, dish, quantity))
  {
  }

  /** Adding raises the total by quantity times the price of the line it lands on. */
  lemma AddItemTotal(items: seq<CartItem>, dish: Dish, quantity: Option<int>)
    ensures var q := quantity.GetOr(DefaultQuantity);
            var price := if FindLine(items, dish.id).Some? then items[FindLine(items, dish.id).value].dish.price else dish.price;
            Total(AddItem(items, dish, quantity)) == Total(items) + price * q
  {
    var q := quantity.GetOr(DefaultQuantity);
    var found := FindLine(items, dish.id);
    if found.Some? {
      var i := found.value;
      var it := items[i].(quantity := items[i].quantity + q);
      assert AddItem(items, dish, quantity) == items[i := it];
      TotalUpdate(items, i, it);
      LineTotalAddQuantity(items[i], q);
    } else {
      assert AddItem(items, dish, quantity) == items + [CartItem(dish, q)];
      TotalAppend(items, [CartItem(dish, q)]);
    }
  }

  /**
   * Raising a line's quantity by `q` raises its line total by `q` times its price: the
   * nonlinear step `AddItemTotal` needs, which the solver does not find inside that proof.
   */
  lemma LineTotalAddQuantity(it: CartItem, q: int)
    ensures LineTotal(it.(quantity := it.quantity + q)) == LineTotal(it) + it.dish.price * q
  {
  }

  /**
   * `updateItem`: the first line for the dish gets the new quantity, every other line stays;
   * with no such line, nothing changes.
   */
  function UpdateItem(items: seq<CartItem>, dishId: int, quantity: int): (r: seq<CartItem>)
    ensures |r| == |items|
    ensures forall j :: 0 <= j < |items| ==>
              r[j] == (if FirstFor(items, dishId, j) then items[j].(quantity := quantity) else items[j])
    ensures (forall j :: 0 <= j < |items| ==> items[j].dish.id != dishId) ==> r == items
  {
    match FindLine(items, dishId)
    case Some(i) => items[i := items[i].(quantity := quantity)]
    case None => items
  }

  /** Setting the same quantity twice is the same as setting it once. */
  lemma UpdateItemIdempotent(items: seq<CartItem>, dishId: int, quantity: int)
    ensures UpdateItem(UpdateItem(items, dishId, quantity), dishId, quantity) == UpdateItem(items, dishId, quantity)
  {
    var once := UpdateItem(items, dishId, quantity);
    forall j | 0 <= j < |items|
      ensures FirstFor(once, dishId, j) == FirstFor(items, dishId, j)
    {
      assert forall k :: 0 <= k < |items| ==> once[k].dish == items[k].dish;
    }
  }

  /** Updating keeps dish ids pairwise distinct. */
  lemma UpdateItemKeepsDistinct(items: seq<CartItem>, dishId: int, quantity: int)
    requires DistinctIds(items)
    ensures DistinctIds(UpdateItem(items, dishId, quantity))
  {
  }

  /** `removeItem`: every line for the dish is dropped; the others stay, in their order. */
  function RemoveItem(items: seq<CartItem>, dishId: int): (r: seq<CartItem>)
    ensures |r| <= |items|
    ensures forall j :: 0 <= j < |r| ==> r[j].dish.id != dishId && r[j] in items
    ensures forall j :: 0 <= j < |items| && items[j].dish.id != dishId ==> items[j] in r
  {
    Filter(items, (it: CartItem) => it.dish.id != dishId)
  }

  /** Removal keeps the relative order: removing from a concatenation removes from each part. */
  lemma RemoveItemConcat(a: seq<CartItem>, b: seq<CartItem>, dishId: int)
    ensures RemoveItem(a + b, dishId) == RemoveItem(a, dishId) + RemoveItem(b, dishId)
  {
    FilterConcat(a, b, (it: CartItem) => it.dish.id != dishId);
  }

  /** Adding a dish that was not in the cart and then removing it gives the cart back. */
  lemma RemoveItemUndoesAdd(items: seq<CartItem>, dish: Dish, quantity: Option<int>)
    requires forall j :: 0 <= j < |items| ==> items[j].dish.id != dish.id
    ensures RemoveItem(AddItem(items, dish, quantity), dish.id) == items
  {
    var p := (it: CartItem) => it.dish.id != dish.id;
    var line := CartItem(dish, quantity.GetOr(DefaultQuantity));
    FilterConcat(items, [line], p);
    FilterAllPass(items, p);
    assert Filter([line], p) == [];
  }

  /** `clear`. */
  function Clear(items: seq<CartItem>): (r: seq<CartItem>)
    ensures IsEmpty(r) && Total(r) == 0
  {
    []
  }

  /** The request body `checkout` posts: the user and one `(dish_id, quantity)` pair per line. */
  datatype OrderLine = OrderLine(dishId: int, quantity: int)
  datatype OrderRequest = OrderRequest(userId: int, items: seq<OrderLine>)

  datatype CheckoutError = Unauthenticated(message: string) | SubmitFailed(request: OrderRequest)

  /** The rejection or the request sent, together with the lines left in the store. */
  datatype CheckoutOutcome = CheckoutOutcome(result: Result<OrderRequest, CheckoutError>, items: seq<CartItem>)

  /** `req` is the body for `user`'s cart: their id and the lines' dish ids and quantities, in order. */
  predicate RequestFor(req: OrderRequest, user: Option<int>, items: seq<CartItem>) {
    && user == Some(req.userId)
    && |req.items| == |items|
    && forall j :: 0 <= j < |items| ==> req.items[j] == OrderLine(items[j].dish.id, items[j].quantity)
  }

  /**
   * `checkout`: without a logged-in user it throws before sending anything; otherwise it posts
   * the lines and clears the cart only once the post has succeeded. `submit` stands for the
   * HTTP call and says whether it resolved.
   */
  function Checkout(items: seq<CartItem>, user: Option<int>, submit: OrderRequest -> bool): (r: CheckoutOutcome)
    ensures user.None? <==> r == CheckoutOutcome(Err(Unauthenticated("Требуется авторизация")), items)
    ensures r.result.Err? ==> r.items == items
    ensures r.result.Ok? ==> r.items == [] && submit(r.result.value)
    ensures r.result.Ok? ==> RequestFor(r.result.value, user, items)
    ensures r.result.Err? && r.result.error.SubmitFailed? ==> RequestFor(r.result.error.request, user, items)
    ensures user.Some? && r.result.Err? ==> r.result.error.SubmitFailed? && !submit(r.result.error.request)
  {
    match user
    case None => CheckoutOutcome(Err(Unauthenticated("Требуется авторизация")), items)
    case Some(uid) =>
      var req := OrderRequest(uid, seq(|items|, (j: int) requires 0 <= j < |items| => OrderLine(items[j].dish.id, items[j].quantity)));
      if submit(req) then CheckoutOutcome(Ok(req), Clear(items))
      else CheckoutOutcome(Err(SubmitFailed(req)), items)
  }

  /** The body for a user's cart is unique: two requests built for the same user and lines are equal. */
  lemma RequestForUnique(a: OrderRequest, b: OrderRequest, user: Option<int>, items: seq<CartItem>)
    requires RequestFor(a, user, items) && RequestFor(b, user, items)
    ensures a == b
  {
    assert a.items == b.items by {
      forall j | 0 <= j < |a.items| ensures a.items[j] == b.items[j] {
        assert a.items[j] == OrderLine(items[j].dish.id, items[j].quantity) == b.items[j];
      }
    }
  }

  /**
   * For a logged-in user, checkout succeeds, sending `req` and emptying the cart, exactly when
   * the post of the request built from their lines resolves; otherwise the cart is kept.
   */
  lemma CheckoutClearsExactlyWhenSubmitted(items: seq<CartItem>, uid: int, submit: OrderRequest -> bool, req: OrderRequest)
    requires RequestFor(req, Some(uid), items)
    ensures Checkout(items, Some(uid), submit).result.Ok? <==> submit(req)
    ensures submit(req) ==> Checkout(items, Some(uid), submit) == CheckoutOutcome(Ok(req), [])
    ensures !submit(req) ==> Checkout(items, Some(uid), submit) == CheckoutOutcome(Err(SubmitFailed(req)), items)
  {
    var r := Checkout(items, Some(uid), submit);
    if r.result.Ok? {
      RequestForUnique(r.result.value, req, Some(uid), items);
    } else {
      RequestForUnique(r.result.error.request, req, Some(uid), items);
    }
  }
}

=== FILE: couriers_api.dfy ===
/**
 * The `/couriers` endpoints: list the orders waiting for a courier, and accept one.
 * Both are open to the `courier` role only.
 */
module CouriersApi {
  import opened Wrappers
  import opened Seqs
  import opened Http
  import opened UserModel
  import opened OrderModel
  import opened Database

  /** A handler's answer together with the tables it leaves behind. */
  datatype OrderReply<+T> = OrderReply(response: Response<T>, db: Db)

  const OnlyCouriers: string := "Only for couriers"

  /** The primary-key lookup `query(Order).get(order_id)`: the position of the row with that key. */
  function FindOrder(orders: seq<Order>, id: int): (r: Option<nat>)
    ensures r.Some? ==> r.value < |orders| && orders[r.value].id == id
    ensures r.None? <==> forall j :: 0 <= j < |orders| ==> orders[j].id != id
  {
    FindFirst(orders, (o: Order) => o.id == id)
  }

  /**
   * GET /couriers/orders as written. The handler returns the `paid` rows themselves, but the
   * route declares `response_model=List[Dict[str, Any]]`, and an ORM row is not a mapping:
   * `dict(order)` raises, response validation fails, and the client gets a server error.
   * Only an empty listing gets through.
   */
  function AvailableOrdersAsWritten(db: Db, caller: Principal): (r: Response<seq<Order>>)
    ensures caller.role != Courier <==> r == Fail(Forbidden, OnlyCouriers)
    ensures caller.role == Courier ==>
              (r.Success? <==> forall i :: 0 <= i < |db.orders| ==> db.orders[i].status != Paid)
    ensures caller.role == Courier && r.Fail? ==> r.code == InternalError
    ensures r.Success? ==> r.body == []
  {
    if caller.role != Courier then Fail(Forbidden, OnlyCouriers)
    else
      var listed := Filter(db.orders, (o: Order) => o.status == Paid);
      if |listed| == 0 then Success(listed)
      else
        assert listed[0] in db.orders;
        Fail(InternalError, "Internal Server Error")
  }

  /**
   * GET /couriers/orders as its documentation intends: the `paid` orders, in storage order (the
   * query names no order; the model fixes the one the rows are stored in); 403 for anyone but a
   * courier.
   */
  function AvailableOrders(db: Db, caller: Principal): (r: Response<seq<Order>>)
    ensures caller.role != Courier <==> r == Fail(Forbidden, OnlyCouriers)
    ensures caller.role == Courier ==> r.Success?
    ensures r.Success? ==> |r.body| <= |db.orders|
    ensures r.Success? ==> forall o :: o in r.body <==> o in db.orders && o.status == Paid
  {
    if caller.role != Courier then Fail(Forbidden, OnlyCouriers)
    else Success(Filter(db.orders, (o: Order) => o.status == Paid))
  }

  /**
   * The discrepancy: as soon as one order is `paid`, the intended listing shows it to a
   * courier, and the written one answers a server error.
   */
  lemma AvailableOrdersAsWrittenFailsOnPaid(db: Db, caller: Principal, i: int)
    requires caller.role == Courier
    requires 0 <= i < |db.orders| && db.orders[i].status == Paid
    ensures AvailableOrdersAsWritten(db, caller) == Fail(InternalError, "Internal Server Error")
    ensures AvailableOrders(db, caller).Success? && db.orders[i] in AvailableOrders(db, caller).body
  {
  }

  /** The listing keeps storage order: listing two table segments gives the two listings in turn. */
  lemma AvailableOrdersKeepOrder(a: seq<Order>, b: seq<Order>, db: Db, caller: Principal)
    requires caller.role == Courier
    requires db.orders == a + b
    ensures AvailableOrders(db, caller).body
            == AvailableOrders(db.(orders := a), caller).body + AvailableOrders(db.(orders := b), caller).body
  {
    FilterConcat(a, b, (o: Order) => o.status == Paid);
  }

  /**
   * POST /couriers/orders/{order_id}/accept as written. `order_id` is declared `gt=0`, so
   * FastAPI answers 422 first; then the role gate, then the lookup. The status becomes
   * `delivering` whatever it was; the handler also sets `courier_id` on the loaded object,
   * but `orders` declares no such column, so nothing of it reaches the table.
   */
  function AcceptOrderAsWritten(db: Db, caller: Principal, orderId: int): (r: OrderReply<string>)
    ensures orderId <= 0 ==> r == OrderReply(Fail(Unprocessable, NotGreaterThanZero), db)
    ensures orderId > 0 && caller.role != Courier ==> r == OrderReply(Fail(Forbidden, OnlyCouriers), db)
    ensures orderId > 0 && caller.role == Courier ==>
              (r.response.Success? <==> exists j :: 0 <= j < |db.orders| && db.orders[j].id == orderId)
    ensures r.response.Fail? ==> r.db == db
    ensures r.response.Success? ==> r.db == db.(orders := r.db.orders)
    ensures r.response.Success? ==> exists i :: 0 <= i < |db.orders| && db.orders[i].id == orderId
                                        && r.db.orders == db.orders[i := db.orders[i].(status := Delivering)]
  {
    if orderId <= 0 then OrderReply(Fail(Unprocessable, NotGreaterThanZero), db)
    else if caller.role != Courier then OrderReply(Fail(Forbidden, OnlyCouriers), db)
    else
      match FindOrder(db.orders, orderId)
      case None => OrderReply(Fail(NotFound, "Order not found"), db)
      case Some(i) =>
        OrderReply(Success("Order accepted"), db.(orders := db.orders[i := db.orders[i].(status := Delivering)]))
  }

  /**
   * As written, the stored outcome of an acceptance does not depend on which courier accepted:
   * two different couriers leave identical tables, so the assignee cannot be recovered.
   */
  lemma AcceptOrderAsWrittenForgetsCourier(db: Db, a: Principal, b: Principal, orderId: int)
    requires a.role == Courier && b.role == Courier && a.id != b.id
    ensures AcceptOrderAsWritten(db, a, orderId) == AcceptOrderAsWritten(db, b, orderId)
  {
  }

  /**
   * Accept with the courier recorded, as the handler's documentation and the `courier_id`
   * assignment intend: status `delivering` and `courierId` the caller's id on the target row,
   * every other row and table unchanged.
   */
  function AcceptOrder(db: Db, caller: Principal, orderId: int): (r: OrderReply<string>)
    ensures orderId <= 0 ==> r == OrderReply(Fail(Unprocessable, NotGreaterThanZero), db)
    ensures orderId > 0 && caller.role != Courier ==> r == OrderReply(Fail(Forbidden, OnlyCouriers), db)
    ensures orderId > 0 && caller.role == Courier ==>
              (r.response.Success? <==> exists j :: 0 <= j < |db.orders| && db.orders[j].id == orderId)
    ensures r.response.Fail? ==> r.db == db
    ensures r.response.Success? ==>
              && r.db == db.(orders := r.db.orders)
              && |r.db.orders| == |db.orders|
              && (forall j :: 0 <= j < |db.orders| && db.orders[j].id != orderId ==> r.db.orders[j] == db.orders[j])
              && (exists j :: 0 <= j < |db.orders| && db.orders[j].id == orderId
                    && r.db.orders[j] == db.orders[j].(status := Delivering, courierId := Some(caller.id)))
  {
    if orderId <= 0 then OrderReply(Fail(Unprocessable, NotGreaterThanZero), db)
    else if caller.role != Courier then OrderReply(Fail(Forbidden, OnlyCouriers), db)
    else
      match FindOrder(db.orders, orderId)
      case None => OrderReply(Fail(NotFound, "Order not found"), db)
      case Some(i) =>
        var o := db.orders[i];
        OrderReply(Success("Order accepted"), db.(orders := db.orders[i := o.(status := Delivering, courierId := Some(caller.id))]))
  }

  /** With the correction, different couriers accepting the same order leave different tables. */
  lemma AcceptOrderDistinguishesCouriers(db: Db, a: Principal, b: Principal, orderId: int)
    requires a.role == Courier && b.role == Courier && a.id != b.id
    requires AcceptOrder(db, a, orderId).response.Success?
    ensures AcceptOrder(db, b, orderId).response.Success?
    ensures AcceptOrder(db, a, orderId).db != AcceptOrder(db, b, orderId).db
  {
    var i := FindOrder(db.orders, orderId).value;
    assert AcceptOrder(db, a, orderId).db.orders[i].courierId == Some(a.id);
    assert AcceptOrder(db, b, orderId).db.orders[i].courierId == Some(b.id);
  }

  /** Accepting keeps order keys unique, since only non-key columns change. */
  lemma AcceptOrderKeepsValid(db: Db, caller: Principal, orderId: int)
    requires Valid(db)
    ensures Valid(AcceptOrder(db, caller, orderId).db)
  {
  }
}

=== FILE: crypto.dfy ===
/**
 * The cryptography the backend delegates to libraries: password hashing (bcrypt through
 * passlib) and token signing (JWT through python-jose). Their internals are not modelled; each
 * is a pair of functions supplied by the caller, and the one law the model relies on is a
 * predicate callers assume of them.
 */
module Crypto {
  import opened Wrappers

  /** `get_password_hash` and `verify_password`. */
  datatype Hasher = Hasher(hash: string -> string, verify: (string, string) -> bool)

  /** A password always verifies against its own hash. */
  ghost predicate SoundHasher(h: Hasher) {
    forall p :: h.verify(p, h.hash(p))
  }

  /** A claim value: text, or a time (minutes). */
  datatype Claim = Text(text: string) | Time(minutes: int)

  /** A token payload: claim name to claim value. */
  type Claims = map<string, Claim>

  /** `jwt.encode` with the configured key and algorithm, and `jwt.decode`, which also checks expiry against `now`. */
  datatype Jwt = Jwt(encode: Claims -> string, decode: (string, int) -> Option<Claims>)

  /** The claims `jwt.decode` lets through at time `now`: `exp`, if present, not yet passed; `sub`, if present, text. */
  predicate Acceptable(c: Claims, now: int) {
    && ("exp" in c ==> c["exp"].Time? && now <= c["exp"].minutes)
    && ("sub" in c ==> c["sub"].Text?)
  }

  /** Decoding a token one signed gives its claims back while they are acceptable. */
  ghost predicate SoundJwt(j: Jwt) {
    forall c, now :: Acceptable(c, now) ==> j.decode(j.encode(c), now) == Some(c)
  }
}

=== FILE: database.dfy ===
/**
 * The relational store: the tables in storage order, the set of existing dish ids (the
 * target of `order_items.dish_id`), and the next primary keys the sequences will hand out.
 * An INSERT draws its key from the sequence before any constraint is checked, and a rollback
 * does not return it, so a failed insert still advances the sequence.
 */
module Database {
  import opened UserModel
  import opened OrderModel

  datatype Db = Db(
    users: seq<User>,
    orders: seq<Order>,
    items: seq<OrderItem>,
    dishes: set<int>,
    nextUserId: int,
    nextOrderId: int)

  /** A result together with the tables left behind. */
  datatype Outcome<+T> = Outcome(value: T, db: Db)

  /** Distinct order keys. */
  predicate UniqueOrderIds(orders: seq<Order>) {
    forall i, j :: 0 <= i < |orders| && 0 <= j < |orders| && i != j ==> orders[i].id != orders[j].id
  }

  /** The table constraints plus: every key handed out so far is below the next one. */
  predicate Valid(db: Db) {
    && UniqueEmails(db.users)
    && UniqueIds(db.users)
    && (forall i :: 0 <= i < |db.users| ==> db.users[i].id < db.nextUserId)
    && UniqueOrderIds(db.orders)
    && (forall i :: 0 <= i < |db.orders| ==> db.orders[i].id < db.nextOrderId)
    && (forall i :: 0 <= i < |db.items| ==> db.items[i].orderId < db.nextOrderId)
  }
}

=== FILE: decimal.dfy ===
/**
 * Decimal text for integers: Python's `str(n)` (also the form in which Redis stores and
 * returns hash integers) and its strict inverse. `Parse` accepts exactly the canonical
 * spellings `Show` produces: an optional `-`, then digits without a leading zero, and no `-0`.
 */
module Decimal {
  import opened Wrappers

  predicate IsDigit(c: char) {
    '0' <= c <= '9'
  }

  function DigitChar(d: nat): (c: char)
    requires d < 10
    ensures IsDigit(c)
  {
    (('0' as int) + d) as char
  }

  function DigitValue(c: char): (d: nat)
    requires IsDigit(c)
    ensures d < 10 && DigitChar(d) == c
  {
    (c as int) - ('0' as int)
  }

  predicate AllDigits(s: string) {
    forall i :: 0 <= i < |s| ==> IsDigit(s[i])
  }

  /** A non-empty run of digits with no superfluous leading zero. */
  predicate CanonicalDigits(s: string) {
    |s| >= 1 && AllDigits(s) && (|s| > 1 ==> s[0] != '0')
  }

  /** Decimal spelling of a natural number. */
  function ShowNat(n: nat): (s: string)
    ensures CanonicalDigits(s)
    ensures s == "0" <==> n == 0
  {
    if n < 10 then [DigitChar(n)]
    else ShowNat(n / 10) + [DigitChar(n % 10)]
  }

  /** Decimal spelling of an integer, `-` first when negative (Python `str`). */
  function Show(n: int): (s: string)
    ensures |s| >= 1
    ensures s[0] == '-' <==> n < 0
    ensures n < 0 ==> CanonicalDigits(s[1..]) && s[1..] != "0"
    ensures n >= 0 ==> CanonicalDigits(s)
  {
    if n < 0 then
      var digits := ShowNat(-n);
      assert ("-" + digits)[1..] == digits;
      "-" + digits
    else ShowNat(n)
  }

  /** Value of a run of digits, most significant first. */
  function DigitsValue(s: string): nat
    requires AllDigits(s)
  {
    if |s| == 0 then 0
    else DigitsValue(s[..|s| - 1]) * 10 + DigitValue(s[|s| - 1])
  }

  /** Strict decimal parse: the integer whose canonical spelling is `s`, if any. */
  function Parse(s: string): (r: Option<int>)
    ensures r.Some? ==> |s| >= 1 && (s[0] == '-' <==> r.value < 0)
    ensures r.Some? ==> forall i :: 0 < i < |s| ==> IsDigit(s[i])
    ensures r.Some? && |s| > 1 ==> s[0] != '0' && (s[0] == '-' ==> s[1] != '0')
  {
    if |s| > 0 && s[0] == '-' then
      var digits := s[1..];
      if CanonicalDigits(digits) && digits != "0" then
        assert digits[0] != '0' by {
          if |digits| == 1 {
            assert digits == [digits[0]];
          }
        }
        LeadingNonZeroIsPositive(digits);
        Some(-(DigitsValue(digits) as int))
      else None
    else if CanonicalDigits(s) then Some(DigitsValue(s))
    else None
  }

  lemma {:induction false} DigitsValueOfShowNat(n: nat)
    ensures DigitsValue(ShowNat(n)) == n
  {
    if n >= 10 {
      var s := ShowNat(n);
      assert s[..|s| - 1] == ShowNat(n / 10);
      DigitsValueOfShowNat(n / 10);
    }
  }

  lemma {:induction false} LeadingNonZeroIsPositive(s: string)
    requires |s| >= 1 && AllDigits(s) && s[0] != '0'
    ensures DigitsValue(s) >= 1
  {
    if |s| > 1 {
      LeadingNonZeroIsPositive(s[..|s| - 1]);
    }
  }

  lemma {:induction false} ShowNatOfDigitsValue(s: string)
    requires CanonicalDigits(s)
    ensures ShowNat(DigitsValue(s)) == s
  {
    if |s| > 1 {
      var p := s[..|s| - 1];
      LeadingNonZeroIsPositive(p);
      ShowNatOfDigitsValue(p);
      var v := DigitsValue(s);
      assert v / 10 == DigitsValue(p) && v % 10 == DigitValue(s[|s| - 1]);
      assert s == p + [s[|s| - 1]];
    }
  }

  /** A canonical run of digits reads as its value. */
  lemma ParseDigits(s: string)
    requires CanonicalDigits(s)
    ensures Parse(s) == Some(DigitsValue(s) as int)
  {
    assert s[0] != '-' by {
      assert IsDigit(s[0]);
    }
  }

  /** A minus sign before a canonical, non-zero run of digits reads as the negated value. */
  lemma ParseNegative(digits: string)
    requires CanonicalDigits(digits) && digits != "0"
    ensures Parse("-" + digits) == Some(-(DigitsValue(digits) as int))
  {
    var s := "-" + digits;
    assert s[0] == '-' && s[1..] == digits;
  }

  /** Parsing the spelling of any integer gives that integer back. */
  lemma ParseShow(n: int)
    ensures Parse(Show(n)) == Some(n)
  {
    if n < 0 {
      var digits := ShowNat(-n);
      assert Show(n) == "-" + digits;
      ParseNegative(digits);
      DigitsValueOfShowNat(-n);
    } else {
      assert Show(n) == ShowNat(n);
      ParseDigits(ShowNat(n));
      DigitsValueOfShowNat(n);
    }
  }

  /** Every string `Parse` accepts is the canonical spelling of its value. */
  lemma ShowParse(s: string)
    requires Parse(s).Some?
    ensures Show(Parse(s).value) == s
  {
    if |s| > 0 && s[0] == '-' {
      ShowNatOfDigitsValue(s[1..]);
      assert s == "-" + s[1..];
    } else {
      ShowNatOfDigitsValue(s);
    }
  }

  /** Distinct integers have distinct spellings. */
  lemma ShowInjective(a: int, b: int)
    ensures Show(a) == Show(b) ==> a == b
  {
    ParseShow(a);
    ParseShow(b);
  }

  /** Distinct canonical strings denote distinct integers. */
  lemma ParseInjective(s: string, t: string)
    requires Parse(s).Some? && Parse(t).Some?
    ensures Parse(s) == Parse(t) ==> s == t
  {
    ShowParse(s);
    ShowParse(t);
  }
}

=== FILE: email_str.dfy ===
/**
 * pydantic's `EmailStr` as the registration body uses it. Past validation, the address the
 * handler sees is stripped of surrounding whitespace, and everything from the first `@` on is
 * lower-cased; the local part keeps its case.
 */
module EmailStr {
  import opened Wrappers
  import opened Seqs

  /** The whitespace `str.strip` removes, as far as the model knows it: space and `\t` to `\r`. */
  predicate IsSpace(c: char) {
    c == ' ' || '\t' <= c <= '\r'
  }

  predicate IsUpperAscii(c: char) {
    'A' <= c <= 'Z'
  }

  /** `str.lower` on one character, for the ASCII letters. */
  function Lower(c: char): (d: char)
    ensures !IsUpperAscii(d)
    ensures IsUpperAscii(c) ==> d as int == c as int + 32
    ensures !IsUpperAscii(c) ==> d == c
  {
    if IsUpperAscii(c) then (c as int + 32) as char else c
  }

  /** `str.lower` on text. */
  function LowerAll(s: string): (r: string)
    ensures |r| == |s|
    ensures forall i :: 0 <= i < |s| ==> r[i] == Lower(s[i])
  {
    seq(|s|, (i: int) requires 0 <= i < |s| => Lower(s[i]))
  }

  /** `str.lstrip`: the text from its first non-whitespace character on. */
  function TrimStart(s: string): (r: string)
    ensures |r| <= |s| && r == s[|s| - |r|..]
    ensures forall k :: 0 <= k < |s| - |r| ==> IsSpace(s[k])
    ensures |r| > 0 ==> !IsSpace(r[0])
  {
    if |s| > 0 && IsSpace(s[0]) then TrimStart(s[1..]) else s
  }

  /** `str.rstrip`: the text up to its last non-whitespace character. */
  function TrimEnd(s: string): (r: string)
    ensures |r| <= |s| && r == s[..|r|]
    ensures forall k :: |r| <= k < |s| ==> IsSpace(s[k])
    ensures |r| > 0 ==> !IsSpace(r[|r| - 1])
  {
    if |s| > 0 && IsSpace(s[|s| - 1]) then TrimEnd(s[..|s| - 1]) else s
  }

  /** The text between its surrounding whitespace. */
  predicate Stripped(s: string) {
    |s| == 0 || (!IsSpace(s[0]) && !IsSpace(s[|s| - 1]))
  }

  /** Trimming both ends leaves a slice of the input with only whitespace around it. */
  lemma TrimBothSlice(s: string) returns (i: nat, j: nat)
    ensures i <= j <= |s| && TrimEnd(TrimStart(s)) == s[i..j]
    ensures forall k :: 0 <= k < i ==> IsSpace(s[k])
    ensures forall k :: j <= k < |s| ==> IsSpace(s[k])
  {
    var t := TrimStart(s);
    var u := TrimEnd(t);
    i, j := |s| - |t|, |s| - |t| + |u|;
    assert t == s[i..];
    assert u == t[..|u|];
    assert u == s[i..j];
    forall k | j <= k < |s| ensures IsSpace(s[k]) {
      assert s[k] == t[k - i];
    }
  }

  /** The same, with the two positions left for the reader to choose. */
  lemma TrimBothIsSlice(s: string)
    ensures exists i, j :: && 0 <= i <= j <= |s| && TrimEnd(TrimStart(s)) == s[i..j]
                           && (forall k :: 0 <= k < i ==> IsSpace(s[k]))
                           && (forall k :: j <= k < |s| ==> IsSpace(s[k]))
  {
    var i, j := TrimBothSlice(s);
  }

  /** Trimming both ends leaves no whitespace at either end, and changes no stripped text. */
  lemma StripEnds(s: string)
    ensures Stripped(TrimEnd(TrimStart(s)))
    ensures Stripped(s) ==> TrimEnd(TrimStart(s)) == s
  {
    var t := TrimStart(s);
    var u := TrimEnd(t);
    assert |u| > 0 ==> u[0] == t[0];
    assert Stripped(s) ==> t == s && u == s;
  }

  /** `str.strip`: the input with only its surrounding whitespace removed. */
  function Strip(s: string): (r: string)
    ensures |r| <= |s|
    ensures Stripped(r)
    ensures Stripped(s) ==> r == s
    ensures exists i, j :: && 0 <= i <= j <= |s| && r == s[i..j]
                           && (forall k :: 0 <= k < i ==> IsSpace(s[k]))
                           && (forall k :: j <= k < |s| ==> IsSpace(s[k]))
  {
    TrimBothIsSlice(s);
    StripEnds(s);
    TrimEnd(TrimStart(s))
  }

  /** The first `@`, if any. */
  function FirstAt(s: string): (r: Option<nat>)
    ensures r.Some? ==> r.value < |s| && s[r.value] == '@' && forall k :: 0 <= k < r.value ==> s[k] != '@'
    ensures r.None? <==> forall k :: 0 <= k < |s| ==> s[k] != '@'
  {
    FindFirst(s, (c: char) => c == '@')
  }

  /** The first `@` is wherever an `@` has none before it. */
  lemma FirstAtIs(s: string, a: nat)
    requires a < |s| && s[a] == '@'
    requires forall k :: 0 <= k < a ==> s[k] != '@'
    ensures FirstAt(s) == Some(a)
  {
    var b := FirstAt(s).value;
    assert !(b < a) && !(a < b);
  }

  /** No capital letter at or after the first `@`. */
  predicate DomainLowered(s: string) {
    FirstAt(s).Some? ==> forall i :: FirstAt(s).value <= i < |s| ==> !IsUpperAscii(s[i])
  }

  /** `t` with everything from position `a` on lower-cased. */
  function LowerFrom(t: string, a: nat): (r: string)
    requires a <= |t|
    ensures |r| == |t|
    ensures forall k :: 0 <= k < a ==> r[k] == t[k]
    ensures forall i :: a <= i < |t| ==> r[i] == Lower(t[i])
  {
    t[..a] + LowerAll(t[a..])
  }

  /** Lower-casing from the first `@` keeps that `@` first. */
  lemma LowerFromKeepsAt(t: string, a: nat)
    requires FirstAt(t) == Some(a)
    ensures FirstAt(LowerFrom(t, a)) == Some(a)
  {
    FirstAtIs(LowerFrom(t, a), a);
  }

  /** Lower-casing keeps the text stripped: no letter becomes whitespace. */
  lemma LowerFromKeepsStripped(t: string, a: nat)
    requires a <= |t| && Stripped(t)
    ensures Stripped(LowerFrom(t, a))
  {
  }

  /** Lower-casing from the first `@` leaves no capital after it. */
  lemma LowerFromLowersDomain(t: string, a: nat)
    requires FirstAt(t) == Some(a)
    ensures DomainLowered(LowerFrom(t, a))
  {
    LowerFromKeepsAt(t, a);
  }

  /** Lower-cases everything from the first `@` on. */
  function LowerDomain(t: string): (r: string)
    ensures |r| == |t|
    ensures forall k :: 0 <= k < |t| ==>
              r[k] == (if FirstAt(t).Some? && k >= FirstAt(t).value then Lower(t[k]) else t[k])
    ensures Stripped(t) ==> Stripped(r)
    ensures FirstAt(t).None? ==> r == t
    ensures FirstAt(r) == FirstAt(t)
    ensures DomainLowered(r)
  {
    match FirstAt(t)
    case None => t
    case Some(a) =>
      LowerFromKeepsAt(t, a);
      LowerFromLowersDomain(t, a);
      if Stripped(t) then LowerFromKeepsStripped(t, a); LowerFrom(t, a) else LowerFrom(t, a)
  }

  /** Lower-casing the domain twice is lower-casing it once. */
  lemma LowerDomainIdempotent(t: string)
    ensures LowerDomain(LowerDomain(t)) == LowerDomain(t)
  {
    var r := LowerDomain(t);
    if FirstAt(t).Some? {
      var a := FirstAt(t).value;
      assert r == LowerFrom(t, a);
      assert LowerFrom(r, a) == r;
    }
  }

  /**
   * The address as `EmailStr` hands it on: the stripped input, its local part (before the first
   * `@`) kept as typed and everything from that `@` on lower-cased.
   */
  function Normalize(s: string): (r: string)
    ensures |r| <= |s|
    ensures Stripped(r)
    ensures DomainLowered(r)
    ensures |r| == |Strip(s)| && FirstAt(r) == FirstAt(Strip(s))
    ensures forall k :: 0 <= k < |r| ==>
              r[k] == (if FirstAt(r).Some? && k >= FirstAt(r).value then Lower(Strip(s)[k]) else Strip(s)[k])
  {
    LowerDomain(Strip(s))
  }

  /** Lower-casing twice is lower-casing once. */
  lemma LowerAllIdempotent(s: string)
    ensures LowerAll(LowerAll(s)) == LowerAll(s)
  {
  }

  /** Normalising an address that is already normalised changes nothing. */
  lemma NormalizeIdempotent(s: string)
    ensures Normalize(Normalize(s)) == Normalize(s)
  {
    var t := Strip(s);
    assert Strip(LowerDomain(t)) == LowerDomain(t);
    LowerDomainIdempotent(t);
  }

  /** A stripped address whose first `@` sits at `a` normalises to itself lower-cased from `a` on. */
  lemma NormalizeStripped(s: string, a: nat)
    requires Stripped(s)
    requires a < |s| && s[a] == '@'
    requires forall k :: 0 <= k < a ==> s[k] != '@'
    ensures Normalize(s) == LowerFrom(s, a)
  {
    FirstAtIs(s, a);
  }

  /** A capital letter after the first `@` is exactly what normalising lower-cases. */
  lemma NormalizeLowersDomainCapital(s: string, a: nat, i: nat)
    requires Stripped(s)
    requires a < i < |s| && s[a] == '@'
    requires forall k :: 0 <= k < a ==> s[k] != '@'
    requires IsUpperAscii(s[i])
    ensures Normalize(s) != s
    ensures Normalize(s)[i] == Lower(s[i])
  {
    NormalizeStripped(s, a);
  }

  /** Lower-casing the example address from its `@` on. */
  lemma LowerFromExample()
    ensures LowerFrom("bob@Example.com", 3) == "bob@example.com"
  {
    var s, n: string := "bob@Example.com", "bob@example.com";
    var r := LowerFrom(s, 3);
    forall i | 0 <= i < |n| ensures r[i] == n[i] {
      if i == 4 {
        assert Lower('E') == 'e';
      }
    }
  }

  /** One address whose domain carries a capital: normalising changes it. */
  lemma NormalizeExample()
    ensures Normalize("bob@Example.com") == "bob@example.com"
  {
    NormalizeStripped("bob@Example.com", 3);
    LowerFromExample();
  }
}

=== FILE: http.dfy ===
/** What a request handler answers, and who is calling. */
module Http {
  import opened UserModel

  const BadRequest: int := 400
  const Unauthorized: int := 401
  const Forbidden: int := 403
  const NotFound: int := 404
  const Unprocessable: int := 422
  const InternalError: int := 500

  /**
   * The message pydantic (version 1, which these handlers run on) gives a `gt=0` parameter that
   * is not positive; FastAPI answers it with status 422.
   */
  const NotGreaterThanZero: string := "ensure this value is greater than 0"

  /** A handler's answer: its success body, or the status and detail of the `HTTPException` it raised. */
  datatype Response<+T> = Success(body: T) | Fail(code: int, detail: string)

  /** The caller identity (`id`, `role`) that authentication hands to a handler. */
  datatype Principal = Principal(id: int, role: Role)

  /** The exception classes the handlers tell apart. */
  datatype Exception = ValueError(message: string) | OtherError(message: string)
}

=== FILE: order_model.dfy ===
/** The `orders` and `order_items` tables: rows, the status enumeration and column defaults. */
module OrderModel {
  import opened Wrappers

  /** The `order_status` enumeration. */
  datatype OrderStatus = Created | Paid | Cooking | Delivering | Delivered | Canceled

  /** The database spelling of a status. */
  function StatusName(s: OrderStatus): string {
    match s
    case Created => "created"
    case Paid => "paid"
    case Cooking => "cooking"
    case Delivering => "delivering"
    case Delivered => "delivered"
    case Canceled => "canceled"
  }

  /** The status a column value denotes; any other text is not a member of the enumeration. */
  function ParseStatus(t: string): Option<OrderStatus> {
    if t == "created" then Some(Created)
    else if t == "paid" then Some(Paid)
    else if t == "cooking" then Some(Cooking)
    else if t == "delivering" then Some(Delivering)
    else if t == "delivered" then Some(Delivered)
    else if t == "canceled" then Some(Canceled)
    else None
  }

  /** The enumeration's six spellings and its six statuses correspond one to one. */
  lemma StatusNameRoundTrip(s: OrderStatus, t: string)
    ensures ParseStatus(StatusName(s)) == Some(s)
    ensures ParseStatus(t) == Some(s) <==> t == StatusName(s)
  {
  }

  /**
   * An `orders` row. Money is in integer minor units and times in minutes. `courierId` is
   * the column acceptance needs; the table as declared has none (see `CouriersApi`).
   */
  datatype Order = Order(
    id: int,
    userId: int,
    status: OrderStatus,
    total: Option<int>,
    createdAt: int,
    deliveredAt: Option<int>,
    courierId: Option<int>)

  /** An `order_items` row (its surrogate key is not modelled). */
  datatype OrderItem = OrderItem(orderId: int, dishId: int, quantity: int, priceAtOrder: Option<int>)

  const DefaultStatus: OrderStatus := Created
  const DefaultQuantity: int := 1

  /** The row an insert produces: an omitted status takes the column default, `created_at` the server clock. */
  function NewOrder(id: int, userId: int, status: Option<OrderStatus>, now: int): (o: Order)
    ensures o.id == id && o.userId == userId && o.createdAt == now
    ensures status.None? ==> o.status == Created
    ensures status.Some? ==> o.status == status.value
    ensures o.total.None? && o.deliveredAt.None? && o.courierId.None?
  {
    Order(id, userId, status.GetOr(DefaultStatus), None, now, None, None)
  }

  /** The line an insert produces: an omitted quantity takes the column default of 1. */
  function NewOrderItem(orderId: int, dishId: int, quantity: Option<int>): (i: OrderItem)
    ensures i.orderId == orderId && i.dishId == dishId
    ensures quantity.None? ==> i.quantity == 1
    ensures quantity.Some? ==> i.quantity == quantity.value
    ensures i.priceAtOrder.None?
  {
    OrderItem(orderId, dishId, quantity.GetOr(DefaultQuantity), None)
  }
}

=== FILE: orders_api.dfy ===
/**
 * POST /orders/create: turns the caller's Redis cart into an `orders` row plus one
 * `order_items` row per cart entry, then clears the cart. The order row is committed on its
 * own before the lines are written, so a failure while writing the lines rolls back the lines
 * only: the order row stays, without lines, and the cart stays as it was.
 */
module OrdersApi {
  import opened Wrappers
  import opened Decimal
  import opened Redis
  import opened Seqs
  import opened CartService
  import opened Http
  import opened OrderModel
  import opened UserModel
  import opened Database

  /** Both stores: the Redis carts and the relational tables. */
  datatype Backend = Backend(redis: Store, db: Db)

  /** The handler's answer (the new order id) and the stores it leaves behind. */
  datatype Checkout = Checkout(response: Response<int>, state: Backend)

  /** `keys` lists every field of `h` exactly once: the order in which HGETALL returned them. */
  predicate Enumerates(keys: seq<string>, h: Hash) {
    && (forall k :: k in h ==> k in keys)
    && (forall i :: 0 <= i < |keys| ==> keys[i] in h)
    && (forall i, j :: 0 <= i < |keys| && 0 <= j < |keys| && i != j ==> keys[i] != keys[j])
  }

  lemma {:induction false} DistinctSeqCardinality(keys: seq<string>)
    requires forall i, j :: 0 <= i < |keys| && 0 <= j < |keys| && i != j ==> keys[i] != keys[j]
    ensures |set k | k in keys| == |keys|
  {
    if |keys| > 0 {
      var rest := keys[1..];
      DistinctSeqCardinality(rest);
      assert (set k | k in keys) == (set k | k in rest) + {keys[0]};
      assert keys[0] !in (set k | k in rest);
    }
  }

  /** An enumeration is exactly as long as the hash has fields. */
  lemma EnumerationLength(keys: seq<string>, h: Hash)
    requires Enumerates(keys, h)
    ensures |keys| == |h|
  {
    DistinctSeqCardinality(keys);
    assert h.Keys == set k | k in keys;
  }

  /**
   * The loop over `cart.items()`: one line per field, in enumeration order, converting field
   * and value with `int(...)`; the first text that is not an integer raises `ValueError`.
   */
  function ToLines(orderId: int, cart: Hash, keys: seq<string>): (r: Result<seq<OrderItem>, Exception>)
    requires forall i :: 0 <= i < |keys| ==> keys[i] in cart
    ensures r.Ok? <==> forall i :: 0 <= i < |keys| ==> Parse(keys[i]).Some? && Parse(cart[keys[i]]).Some?
    ensures r.Ok? ==> |r.value| == |keys|
    ensures r.Ok? ==> forall i :: 0 <= i < |keys| ==>
              r.value[i] == OrderItem(orderId, Parse(keys[i]).value, Parse(cart[keys[i]]).value, None)
  {
    if |keys| == 0 then Ok([])
    else
      var k := keys[0];
      if Parse(k).None? || Parse(cart[k]).None? then Err(ValueError("invalid literal for int() with base 10"))
      else
        match ToLines(orderId, cart, keys[1..])
        case Err(e) => Err(e)
        case Ok(rest) => Ok([NewOrderItem(orderId, Parse(k).value, Some(Parse(cart[k]).value))] + rest)
  }

  /** True when `users` holds a row with primary key `id` (the target of `orders.user_id`). */
  predicate UserExists(db: Db, id: int) {
    exists i :: 0 <= i < |db.users| && db.users[i].id == id
  }

  /** True when every line names an existing dish (the target of `order_items.dish_id`). */
  predicate DishesExist(lines: seq<OrderItem>, dishes: set<int>) {
    forall i :: 0 <= i < |lines| ==> lines[i].dishId in dishes
  }

  /**
   * The first commit: a `created` order of `userId` under the next key, or the foreign-key
   * violation on `orders.user_id` with no row stored. Either way the key is spent.
   */
  function CommitOrder(db: Db, userId: int, now: int): (r: Outcome<Result<int, Exception>>)
    ensures r.value.Ok? <==> UserExists(db, userId)
    ensures r.db.nextOrderId == db.nextOrderId + 1
    ensures r.value.Err? ==> r.db == db.(nextOrderId := db.nextOrderId + 1)
    ensures r.value.Ok? ==>
              && r.value.value == db.nextOrderId
              && r.db == db.(orders := db.orders + [NewOrder(db.nextOrderId, userId, Some(Created), now)],
                             nextOrderId := db.nextOrderId + 1)
  {
    if !UserExists(db, userId) then
      Outcome(Err(OtherError("insert or update on table \"orders\" violates foreign key constraint")),
              db.(nextOrderId := db.nextOrderId + 1))
    else
      Outcome(Ok(db.nextOrderId),
              db.(orders := db.orders + [NewOrder(db.nextOrderId, userId, Some(Created), now)],
                  nextOrderId := db.nextOrderId + 1))
  }

  const Int32Min: int := -0x8000_0000
  const Int32Max: int := 0x7FFF_FFFF

  /** The range of an SQL `INTEGER` column. */
  predicate InInt32(n: int) {
    Int32Min <= n <= Int32Max
  }

  /** True when every line's `dish_id` and `quantity` fit their `INTEGER` columns. */
  predicate LinesFit(lines: seq<OrderItem>) {
    forall i :: 0 <= i < |lines| ==> InInt32(lines[i].dishId) && InInt32(lines[i].quantity)
  }

  /**
   * The second commit: the lines appended to `order_items`; or, with every line rolled back,
   * the range error of a value too wide for its `INTEGER` column, or the foreign-key violation
   * on `order_items.dish_id`.
   */
  function CommitLines(db: Db, lines: seq<OrderItem>): (r: Result<Db, Exception>)
    ensures r.Ok? <==> LinesFit(lines) && DishesExist(lines, db.dishes)
    ensures r.Ok? ==> r.value == db.(items := db.items + lines)
  {
    if !LinesFit(lines) then
      Err(OtherError("integer out of range"))
    else if !DishesExist(lines, db.dishes) then
      Err(OtherError("insert or update on table \"order_items\" violates foreign key constraint"))
    else
      Ok(db.(items := db.items + lines))
  }

  /** The checkout workflow. `keys` is the order in which Redis enumerates the cart. */
  function CreateOrder(s: Backend, caller: Principal, now: int, keys: seq<string>): (c: Checkout)
    requires Enumerates(keys, GetCart(s.redis, caller.id))
    // An empty cart is refused and nothing changes.
    ensures |GetCart(s.redis, caller.id)| == 0 ==> c == Checkout(Fail(BadRequest, "Cart is empty"), s)
    // Success: a `created` order of the caller under the next key, one line per cart entry, an empty cart.
    ensures c.response.Success? ==>
              && c.response.body == s.db.nextOrderId
              && c.state.db.orders == s.db.orders + [Order(c.response.body, caller.id, Created, None, now, None, None)]
              && c.state.db.nextOrderId == s.db.nextOrderId + 1
              && c.state.db.users == s.db.users && c.state.db.dishes == s.db.dishes
              && c.state.db.nextUserId == s.db.nextUserId
              && ToLines(c.response.body, GetCart(s.redis, caller.id), keys).Ok?
              && c.state.db.items == s.db.items + ToLines(c.response.body, GetCart(s.redis, caller.id), keys).value
              && |c.state.db.items| == |s.db.items| + |GetCart(s.redis, caller.id)|
              && GetCart(c.state.redis, caller.id) == map[]
              && (forall v :: v != caller.id ==> GetCart(c.state.redis, v) == GetCart(s.redis, v))
    // A non-empty cart is turned into an order exactly when the caller's row exists, every
    // entry reads as integers, and every line fits its columns and names an existing dish.
    ensures |GetCart(s.redis, caller.id)| > 0 ==>
              (c.response.Success? <==>
                 && UserExists(s.db, caller.id)
                 && ToLines(s.db.nextOrderId, GetCart(s.redis, caller.id), keys).Ok?
                 && LinesFit(ToLines(s.db.nextOrderId, GetCart(s.redis, caller.id), keys).value)
                 && DishesExist(ToLines(s.db.nextOrderId, GetCart(s.redis, caller.id), keys).value, s.db.dishes))
    // Failure: the cart and the lines are untouched; a non-empty cart fails with 404, possibly
    // after the order row was committed.
    ensures c.response.Fail? ==>
              && c.state.redis == s.redis
              && c.state.db.items == s.db.items
              && c.state.db.users == s.db.users
              && c.state.db.dishes == s.db.dishes
    ensures c.response.Fail? && |GetCart(s.redis, caller.id)| > 0 ==>
              && c.response.code == NotFound
              && (|| c.state.db == s.db.(nextOrderId := s.db.nextOrderId + 1)
                  || c.state.db == s.db.(orders := s.db.orders + [NewOrder(s.db.nextOrderId, caller.id, Some(Created), now)],
                                         nextOrderId := s.db.nextOrderId + 1))
    // Of the two, no order row is stored exactly when the caller has no row.
    ensures c.response.Fail? && |GetCart(s.redis, caller.id)| > 0 ==>
              (c.state.db == s.db.(nextOrderId := s.db.nextOrderId + 1) <==> !UserExists(s.db, caller.id))
    // A non-empty cart spends one order key, whatever the outcome.
    ensures |GetCart(s.redis, caller.id)| > 0 ==> c.state.db.nextOrderId == s.db.nextOrderId + 1
  {
    var cart := GetCart(s.redis, caller.id);
    EnumerationLength(keys, cart);
    if |cart| == 0 then
      Checkout(Fail(BadRequest, "Cart is empty"), s)
    else
      var first := CommitOrder(s.db, caller.id, now);
      var committed := first.db;
      match first.value
      case Err(e) => Checkout(Fail(NotFound, e.message), Backend(s.redis, committed))
      case Ok(_) =>
        match ToLines(s.db.nextOrderId, cart, keys)
        case Err(e) => Checkout(Fail(NotFound, e.message), Backend(s.redis, committed))
        case Ok(lines) =>
          match CommitLines(committed, lines)
          case Err(e) => Checkout(Fail(NotFound, e.message), Backend(s.redis, committed))
          case Ok(written) => Checkout(Success(s.db.nextOrderId), Backend(ClearCart(s.redis, caller.id), written))
  }

  /** The lines built from an enumeration of a well-formed cart are exactly that cart's entries. */
  lemma LinesMatchCart(orderId: int, cart: Hash, keys: seq<string>, lines: seq<OrderItem>)
    requires Enumerates(keys, cart)
    requires WellFormedCart(cart)
    requires |lines| == |keys|
    requires forall i :: 0 <= i < |keys| ==>
               lines[i] == OrderItem(orderId, Parse(keys[i]).value, Parse(cart[keys[i]]).value, None)
    ensures forall i :: 0 <= i < |lines| ==>
              && lines[i].orderId == orderId
              && lines[i].dishId in DecodeCart(cart)
              && lines[i].quantity == DecodeCart(cart)[lines[i].dishId]
              && lines[i].priceAtOrder.None?
    ensures forall d :: d in DecodeCart(cart) ==> exists i :: 0 <= i < |lines| && lines[i].dishId == d
    ensures forall i, j :: 0 <= i < |lines| && 0 <= j < |lines| && i != j ==> lines[i].dishId != lines[j].dishId
  {
    var m := DecodeCart(cart);
    forall d | d in m ensures exists i :: 0 <= i < |lines| && lines[i].dishId == d {
      DecodeCartDomain(cart, d);
      var i :| 0 <= i < |keys| && keys[i] == Show(d);
      ParseShow(d);
      assert lines[i].dishId == d;
    }
    forall i, j | 0 <= i < |lines| && 0 <= j < |lines| && i != j ensures lines[i].dishId != lines[j].dishId {
      ParseInjective(keys[i], keys[j]);
    }
  }

  /** On success the lines appended to `order_items` are the enumeration's entries, in order. */
  lemma CreateOrderNewLines(s: Backend, caller: Principal, now: int, keys: seq<string>, c: Checkout)
    requires Enumerates(keys, GetCart(s.redis, caller.id))
    requires c == CreateOrder(s, caller, now, keys)
    requires c.response.Success?
    ensures |s.db.items| <= |c.state.db.items|
    ensures |c.state.db.items[|s.db.items|..]| == |keys|
    ensures forall i :: 0 <= i < |keys| ==>
              c.state.db.items[|s.db.items|..][i]
              == OrderItem(c.response.body, Parse(keys[i]).value, Parse(GetCart(s.redis, caller.id)[keys[i]]).value, None)
  {
    var lines := c.state.db.items[|s.db.items|..];
    forall i | 0 <= i < |keys|
      ensures lines[i] == OrderItem(c.response.body, Parse(keys[i]).value, Parse(GetCart(s.redis, caller.id)[keys[i]]).value, None)
    {
      assert lines[i] == c.state.db.items[|s.db.items| + i];
    }
  }

  /**
   * On success the new lines are exactly the cart: one line per dish in the cart, each carrying
   * the new order's id and the dish's count, no dish twice, and no price captured.
   */
  lemma CreateOrderLinesMatchCart(s: Backend, caller: Principal, now: int, keys: seq<string>, c: Checkout)
    requires Enumerates(keys, GetCart(s.redis, caller.id))
    requires WellFormed(s.redis)
    requires c == CreateOrder(s, caller, now, keys)
    requires c.response.Success?
    ensures |s.db.items| <= |c.state.db.items|
    ensures var lines := c.state.db.items[|s.db.items|..];
            var m := DecodeCart(GetCart(s.redis, caller.id));
            && |lines| == |GetCart(s.redis, caller.id)|
            && (forall i :: 0 <= i < |lines| ==>
                  && lines[i].orderId == c.response.body
                  && lines[i].dishId in m
                  && lines[i].quantity == m[lines[i].dishId]
                  && lines[i].priceAtOrder.None?)
            && (forall d :: d in m ==> exists i :: 0 <= i < |lines| && lines[i].dishId == d)
            && (forall i, j :: 0 <= i < |lines| && 0 <= j < |lines| && i != j ==> lines[i].dishId != lines[j].dishId)
  {
    var cart := GetCart(s.redis, caller.id);
    assert WellFormedCart(cart);
    CreateOrderNewLines(s, caller, now, keys, c);
    EnumerationLength(keys, cart);
    LinesMatchCart(c.response.body, cart, keys, c.state.db.items[|s.db.items|..]);
  }

  /**
   * The partial write made observable: a cart naming a dish that does not exist makes the
   * handler answer 404 and keep the cart, yet the order row committed first stays in
   * `orders`, and no line refers to it.
   */
  lemma CreateOrderPartialWrite(s: Backend, caller: Principal, now: int, keys: seq<string>, d: int, c: Checkout)
    requires Enumerates(keys, GetCart(s.redis, caller.id))
    requires WellFormed(s.redis) && Valid(s.db)
    requires UserExists(s.db, caller.id)
    requires Show(d) in GetCart(s.redis, caller.id) && d !in s.db.dishes
    requires c == CreateOrder(s, caller, now, keys)
    ensures c.response.Fail? && c.response.code == NotFound
    ensures c.state.redis == s.redis
    ensures c.state.db.orders == s.db.orders + [Order(s.db.nextOrderId, caller.id, Created, None, now, None, None)]
    ensures forall i :: 0 <= i < |c.state.db.items| ==> c.state.db.items[i].orderId != s.db.nextOrderId
  {
    var cart := GetCart(s.redis, caller.id);
    var oid := s.db.nextOrderId;
    assert WellFormedCart(cart);
    var i :| 0 <= i < |keys| && keys[i] == Show(d);
    ParseShow(d);
    var r := ToLines(oid, cart, keys);
    assert r.Ok?;
    assert r.value[i].dishId == d;
  }

  /** The first commit keeps the table constraints, whether or not the row is stored. */
  lemma CommitOrderKeepsValid(db: Db, userId: int, now: int)
    requires Valid(db)
    ensures Valid(CommitOrder(db, userId, now).db)
  {
  }

  /** The second commit keeps the table constraints when every line points at a key already handed out. */
  lemma CommitLinesKeepsValid(db: Db, lines: seq<OrderItem>)
    requires Valid(db)
    requires forall i :: 0 <= i < |lines| ==> lines[i].orderId < db.nextOrderId
    requires CommitLines(db, lines).Ok?
    ensures Valid(CommitLines(db, lines).value)
  {
    var items := db.items + lines;
    forall i | 0 <= i < |items| ensures items[i].orderId < db.nextOrderId {
      if i >= |db.items| {
        assert items[i] == lines[i - |db.items|];
      }
    }
  }

  /** Checkout keeps the table constraints and the key counters consistent, whatever its outcome. */
  lemma CreateOrderKeepsValid(s: Backend, caller: Principal, now: int, keys: seq<string>, c: Checkout)
    requires Enumerates(keys, GetCart(s.redis, caller.id))
    requires Valid(s.db)
    requires c == CreateOrder(s, caller, now, keys)
    ensures Valid(c.state.db)
  {
    var cart := GetCart(s.redis, caller.id);
    if |cart| > 0 {
      CommitOrderKeepsValid(s.db, caller.id, now);
    }
    if |cart| > 0 && CommitOrder(s.db, caller.id, now).value.Ok? {
      var committed := CommitOrder(s.db, caller.id, now).db;
      var built := ToLines(s.db.nextOrderId, cart, keys);
      if built.Ok? && CommitLines(committed, built.value).Ok? {
        var lines := built.value;
        assert forall i :: 0 <= i < |lines| ==> lines[i].orderId == s.db.nextOrderId;
        CommitLinesKeepsValid(committed, lines);
      }
    }
  }
}

=== FILE: redis.dfy ===
/**
 * The part of the Redis key-value store the cart uses: keys naming hashes, each hash a map
 * from field text to value text. Integer values are kept as their decimal text, and
 * HINCRBY works on signed 64-bit integers.
 */
module Redis {
  import opened Wrappers
  import opened Decimal

  const Int64Min: int := -0x8000_0000_0000_0000
  const Int64Max: int := 0x7FFF_FFFF_FFFF_FFFF

  predicate InInt64(n: int) {
    Int64Min <= n <= Int64Max
  }

  type Hash = map<string, string>
  type Store = map<string, Hash>

  /** The server's error replies (surfaced by the client library as `ResponseError`). */
  datatype ReplyError =
    | NotAnInteger  // "hash value is not an integer" / "value is not an integer or out of range"
    | Overflow      // "increment or decrement would overflow"

  /** Every stored hash value is the canonical text of a 64-bit integer. */
  predicate IntegerHash(h: Hash) {
    forall f :: f in h ==> Parse(h[f]).Some? && InInt64(Parse(h[f]).value)
  }

  /** HGETALL: the whole hash at `key`; a missing key reads as the empty hash. */
  function HGetAll(st: Store, key: string): (h: Hash)
    ensures key !in st ==> h == map[]
  {
    if key in st then st[key] else map[]
  }

  /** The integer a field holds for HINCRBY purposes: a missing field counts as 0. */
  function FieldValue(h: Hash, field: string): Option<int> {
    if field in h then
      (if Parse(h[field]).Some? && InInt64(Parse(h[field]).value) then Parse(h[field]) else None)
    else Some(0)
  }

  /**
   * HINCRBY key field incr: adds `incr` to the field, creating hash and field as needed.
   * Fails, changing nothing, when the increment or the stored value is not a 64-bit integer
   * or when the sum leaves the 64-bit range.
   */
  function HIncrBy(st: Store, key: string, field: string, incr: int): (r: Result<Store, ReplyError>)
    ensures r.Ok? <==> InInt64(incr) && FieldValue(HGetAll(st, key), field).Some?
                       && InInt64(FieldValue(HGetAll(st, key), field).value + incr)
    ensures r.Ok? ==> key in r.value && field in r.value[key]
    ensures r.Ok? ==> Parse(r.value[key][field]) == Some(FieldValue(HGetAll(st, key), field).value + incr)
    ensures r.Ok? ==> forall f :: f in HGetAll(st, key) && f != field ==> f in r.value[key] && r.value[key][f] == st[key][f]
    ensures r.Ok? ==> r.value[key].Keys == HGetAll(st, key).Keys + {field}
    ensures r.Ok? ==> forall k :: k != key ==> HGetAll(r.value, k) == HGetAll(st, k)
  {
    var h := HGetAll(st, key);
    if !InInt64(incr) then Err(NotAnInteger)
    else match FieldValue(h, field)
      case None => Err(NotAnInteger)
      case Some(prev) =>
        if !InInt64(prev + incr) then Err(Overflow)
        else
          ParseShow(prev + incr);
          Ok(st[key := h[field := Show(prev + incr)]])
  }

  /** DEL key: the hash is gone and every other key is untouched. */
  function Del(st: Store, key: string): (r: Store)
    ensures HGetAll(r, key) == map[]
    ensures forall k :: k != key ==> HGetAll(r, k) == HGetAll(st, k)
  {
    st - {key}
  }
}

=== FILE: scenarios.dfy ===
/** An end-to-end run through the cart and checkout endpoints, from an empty store. */
module Scenarios {
  import opened Wrappers
  import opened Decimal
  import opened Redis
  import opened CartService
  import opened CartApi
  import opened Http
  import opened Seqs
  import opened OrderModel
  import opened Database
  import opened OrdersApi

  lemma SmallNumerals()
    ensures Show(1) == "1" && Show(2) == "2" && Show(3) == "3"
    ensures Parse("1") == Some(1) && Parse("2") == Some(2) && Parse("3") == Some(3)
  {
    ParseShow(1);
    ParseShow(2);
    ParseShow(3);
  }

  /** The user's cart after adding two of dish 1. */
  function OneDish(u: Principal): Store {
    map[CartKey(u.id) := map["1" := "2"]]
  }

  /** The user's cart after also adding one of dish 3. */
  function TwoDishes(u: Principal): Store {
    map[CartKey(u.id) := map["1" := "2", "3" := "1"]]
  }

  lemma FirstAdd(u: Principal)
    ensures AddToCartEndpoint(map[], u, 1, 2) == CartReply(Success("Dish added to cart"), OneDish(u))
  {
    SmallNumerals();
  }

  lemma SecondAdd(u: Principal)
    ensures AddToCartEndpoint(OneDish(u), u, 3, 1) == CartReply(Success("Dish added to cart"), TwoDishes(u))
  {
    SmallNumerals();
    assert FieldValue(HGetAll(OneDish(u), CartKey(u.id)), "3") == Some(0);
  }

  lemma TwoDishesWellFormed(u: Principal)
    ensures GetCart(TwoDishes(u), u.id) == map["1" := "2", "3" := "1"]
    ensures WellFormed(TwoDishes(u))
  {
    SmallNumerals();
    var h := map["1" := "2", "3" := "1"];
    assert WellFormedCart(h) by {
      assert forall f :: f in h ==> f == "1" || f == "3";
    }
  }

  lemma MapsAgree(v: map<int, int>, m: map<int, int>)
    requires forall d :: d in v <==> d in m
    requires forall d :: d in v ==> v[d] == m[d]
    ensures v == m
  {
    forall d ensures d in v.Keys <==> d in m.Keys {
      assert d in v <==> d in m;
    }
    assert v.Keys == m.Keys;
    forall d | d in v.Keys ensures v[d] == m[d] {
      assert d in v;
    }
  }

  /** The cart view is determined by which dishes have entries and what they count. */
  lemma ViewCartIs(st: Store, u: Principal, m: map<int, int>)
    requires WellFormed(st)
    requires forall d :: d in m <==> Show(d) in GetCart(st, u.id)
    requires forall d :: d in m ==> m[d] == Count(st, u.id, d)
    ensures ViewCart(st, u) == m
  {
    var v := ViewCart(st, u);
    MapsAgree(v, m);
  }

  lemma ViewTwo(u: Principal)
    ensures WellFormed(TwoDishes(u))
    ensures ViewCart(TwoDishes(u), u) == map[1 := 2, 3 := 1]
  {
    TwoDishesWellFormed(u);
    SmallNumerals();
    var st := TwoDishes(u);
    var h := GetCart(st, u.id);
    var m := map[1 := 2, 3 := 1];
    forall d ensures d in m <==> Show(d) in h {
      ShowInjective(d, 1);
      ShowInjective(d, 3);
    }
    assert Count(st, u.id, 1) == 2;
    assert Count(st, u.id, 3) == 1;
    ViewCartIs(st, u, m);
  }

  lemma EnumeratesTwo(h: Hash)
    requires h == map["1" := "2", "3" := "1"]
    ensures Enumerates(["1", "3"], h)
  {
  }

  lemma LinesOfTwo(orderId: int, h: Hash)
    requires h == map["1" := "2", "3" := "1"]
    ensures ToLines(orderId, h, ["1", "3"]) == Ok([OrderItem(orderId, 1, 2, None), OrderItem(orderId, 3, 1, None)])
  {
    SmallNumerals();
    var keys := ["1", "3"];
    assert h[keys[0]] == "2" && h[keys[1]] == "1";
    var r := ToLines(orderId, h, keys);
    assert r.Ok?;
    assert r.value[0] == OrderItem(orderId, 1, 2, None);
    assert r.value[1] == OrderItem(orderId, 3, 1, None);
    assert |r.value| == |keys| == 2;
    assert r.value == [OrderItem(orderId, 1, 2, None), OrderItem(orderId, 3, 1, None)];
  }

  lemma CheckoutTwo(db: Db, u: Principal, now: int)
    requires UserExists(db, u.id)
    requires 1 in db.dishes && 3 in db.dishes
    ensures Enumerates(["1", "3"], GetCart(TwoDishes(u), u.id))
    ensures var c := CreateOrder(Backend(TwoDishes(u), db), u, now, ["1", "3"]);
            && c.response == Success(db.nextOrderId)
            && GetCart(c.state.redis, u.id) == map[]
  {
    TwoDishesWellFormed(u);
    var cart := GetCart(TwoDishes(u), u.id);
    EnumeratesTwo(cart);
    LinesOfTwo(db.nextOrderId, cart);
    var lines := [OrderItem(db.nextOrderId, 1, 2, None), OrderItem(db.nextOrderId, 3, 1, None)];
    assert DishesExist(lines, db.dishes);
    assert LinesFit(lines);
  }

  /**
   * A user adds two of dish 1 and one of dish 3, sees `{1: 2, 3: 1}`, checks out, gets the next
   * order id, and finds the cart empty afterwards.
   */
  lemma AddViewCheckout(db: Db, u: Principal, now: int)
    requires UserExists(db, u.id)
    requires 1 in db.dishes && 3 in db.dishes
    ensures var first := AddToCartEndpoint(map[], u, 1, 2);
            var second := AddToCartEndpoint(first.store, u, 3, 1);
            && first.response.Success? && second.response.Success?
            && WellFormed(second.store)
            && ViewCart(second.store, u) == map[1 := 2, 3 := 1]
            && Enumerates(["1", "3"], GetCart(second.store, u.id))
            && var c := CreateOrder(Backend(second.store, db), u, now, ["1", "3"]);
               && c.response == Success(db.nextOrderId)
               && GetCart(c.state.redis, u.id) == map[]
  {
    FirstAdd(u);
    SecondAdd(u);
    ViewTwo(u);
    CheckoutTwo(db, u, now);
  }
}

=== FILE: seqs.dfy ===
/** Sequence searches used by the stores: first match, filter, and character-class tests. */
module Seqs {
  import opened Wrappers

  /** Index of the first element satisfying `p` (JavaScript `Array.find`, SQL `.first()`). */
  function FindFirst<T>(s: seq<T>, p: T -> bool): (r: Option<nat>)
    ensures r.Some? ==> r.value < |s| && p(s[r.value])
    ensures r.Some? ==> forall j :: 0 <= j < r.value ==> !p(s[j])
    ensures r.None? <==> forall j :: 0 <= j < |s| ==> !p(s[j])
  {
    if |s| == 0 then None
    else if p(s[0]) then Some(0)
    else
      match FindFirst(s[1..], p)
      case None => None
      case Some(i) => Some(i + 1)
  }

  /** The elements satisfying `p`, in their original order (JavaScript `Array.filter`). */
  function Filter<T>(s: seq<T>, p: T -> bool): (r: seq<T>)
    ensures |r| <= |s|
    ensures forall i :: 0 <= i < |r| ==> r[i] in s && p(r[i])
    ensures forall i :: 0 <= i < |s| && p(s[i]) ==> s[i] in r
  {
    if |s| == 0 then []
    else if p(s[0]) then [s[0]] + Filter(s[1..], p)
    else Filter(s[1..], p)
  }

  /** Filtering distributes over concatenation, so the relative order of kept elements is preserved. */
  lemma {:induction false} FilterConcat<T>(a: seq<T>, b: seq<T>, p: T -> bool)
    ensures Filter(a + b, p) == Filter(a, p) + Filter(b, p)
  {
    if |a| == 0 {
      assert a + b == b;
    } else {
      assert (a + b)[1..] == a[1..] + b;
      FilterConcat(a[1..], b, p);
    }
  }

  /** Filtering keeps a sequence whole exactly when every element passes. */
  lemma {:induction false} FilterAllPass<T>(s: seq<T>, p: T -> bool)
    requires forall i :: 0 <= i < |s| ==> p(s[i])
    ensures Filter(s, p) == s
  {
    if |s| > 0 {
      FilterAllPass(s[1..], p);
    }
  }

  /** True when some element satisfies `p` (a regular-expression character class searched anywhere). */
  function Any<T>(s: seq<T>, p: T -> bool): (r: bool)
    ensures r <==> exists i :: 0 <= i < |s| && p(s[i])
  {
    if |s| == 0 then false
    else p(s[0]) || Any(s[1..], p)
  }

  /** True when every element satisfies `p`. */
  function All<T>(s: seq<T>, p: T -> bool): (r: bool)
    ensures r <==> forall i :: 0 <= i < |s| ==> p(s[i])
  {
    if |s| == 0 then true
    else p(s[0]) && All(s[1..], p)
  }
}

=== FILE: user_model.dfy ===
/** The `users` table: rows, the role enumeration and the unique-email rule. */
module UserModel {
  import opened Wrappers

  /** The `user_roles` enumeration. */
  datatype Role = Customer | Courier | Admin

  function RoleName(r: Role): string {
    match r
    case Customer => "customer"
    case Courier => "courier"
    case Admin => "admin"
  }

  function ParseRole(t: string): Option<Role> {
    if t == "customer" then Some(Customer)
    else if t == "courier" then Some(Courier)
    else if t == "admin" then Some(Admin)
    else None
  }

  /** The enumeration's three spellings and its three roles correspond one to one. */
  lemma RoleNameRoundTrip(r: Role, t: string)
    ensures ParseRole(RoleName(r)) == Some(r)
    ensures ParseRole(t) == Some(r) <==> t == RoleName(r)
  {
  }

  /** A `users` row; `passwordHash` is the `password` column, which holds a hash. */
  datatype User = User(id: int, email: string, passwordHash: string, role: Role, address: Option<string>)

  /** The `unique=True` constraint on `email`. */
  predicate UniqueEmails(users: seq<User>) {
    forall i, j :: 0 <= i < |users| && 0 <= j < |users| && i != j ==> users[i].email != users[j].email
  }

  /** Primary keys are distinct. */
  predicate UniqueIds(users: seq<User>) {
    forall i, j :: 0 <= i < |users| && 0 <= j < |users| && i != j ==> users[i].id != users[j].id
  }
}

=== FILE: user_repository.dfy ===
/** The user repository: lookups and writes on the `users` table. */
module UserRepository {
  import opened Wrappers
  import opened Seqs
  import opened UserModel
  import opened Database
  import opened Crypto

  /** A database error raised at commit (a violated constraint). */
  datatype DbError = IntegrityError(detail: string)

  const DefaultRole: Role := Customer

  /** `get_user_by_email`: the first user with that email, or none. */
  function GetUserByEmail(db: Db, email: string): (r: Option<User>)
    ensures r.Some? ==> r.value in db.users && r.value.email == email
    ensures r.None? <==> forall i :: 0 <= i < |db.users| ==> db.users[i].email != email
  {
    match FindFirst(db.users, (u: User) => u.email == email)
    case None => None
    case Some(i) => Some(db.users[i])
  }

  /** With unique emails, the lookup finds exactly the user registered under that email. */
  lemma GetUserByEmailFindsOwner(db: Db, email: string, i: int)
    requires UniqueEmails(db.users)
    requires 0 <= i < |db.users| && db.users[i].email == email
    ensures GetUserByEmail(db, email) == Some(db.users[i])
  {
    var k := FindFirst(db.users, (u: User) => u.email == email).value;
    assert k == i;
  }

  /** The position of the user with primary key `id` (`filter(User.id == id).first()`). */
  function FindUser(users: seq<User>, id: int): (r: Option<nat>)
    ensures r.Some? ==> r.value < |users| && users[r.value].id == id
    ensures r.None? <==> forall j :: 0 <= j < |users| ==> users[j].id != id
  {
    FindFirst(users, (u: User) => u.id == id)
  }

  /**
   * `create_user`: stores the hash of the password, never the password, with the role given
   * (`customer` by default) and no address. A second user with the same email violates the
   * unique constraint at commit; the key drawn for the row is spent all the same.
   */
  function CreateUser(db: Db, h: Hasher, email: string, password: string, role: Option<Role>)
    : (r: Outcome<Result<User, DbError>>)
    ensures r.value.Ok? <==> forall i :: 0 <= i < |db.users| ==> db.users[i].email != email
    ensures r.db.nextUserId == db.nextUserId + 1
    ensures r.value.Err? ==> r.db == db.(nextUserId := db.nextUserId + 1)
    ensures r.value.Ok? ==>
              && r.value.value == User(db.nextUserId, email, h.hash(password), role.GetOr(Customer), None)
              && r.db == db.(users := db.users + [r.value.value], nextUserId := db.nextUserId + 1)
  {
    if GetUserByEmail(db, email).Some? then
      Outcome(Err(IntegrityError("duplicate key value violates unique constraint on users.email")),
              db.(nextUserId := db.nextUserId + 1))
    else
      var u := User(db.nextUserId, email, h.hash(password), role.GetOr(DefaultRole), None);
      Outcome(Ok(u), db.(users := db.users + [u], nextUserId := db.nextUserId + 1))
  }

  /** Creating a user keeps emails and keys unique. */
  lemma CreateUserKeepsValid(db: Db, h: Hasher, email: string, password: string, role: Option<Role>)
    requires Valid(db)
    ensures Valid(CreateUser(db, h, email, password, role).db)
  {
  }

  /** The columns a partial update may name; absent fields are left alone. */
  datatype UserPatch = UserPatch(
    email: Option<string>,
    password: Option<string>,
    role: Option<Role>,
    address: Option<Option<string>>)

  /** `setattr` for every supplied field. The `password` column is written as given. */
  function Patched(u: User, p: UserPatch): (r: User)
    ensures r.id == u.id
    ensures p.email.Some? ==> r.email == p.email.value
    ensures p.email.None? ==> r.email == u.email
    ensures p.password.Some? ==> r.passwordHash == p.password.value
    ensures p.password.None? ==> r.passwordHash == u.passwordHash
    ensures p.role.Some? ==> r.role == p.role.value
    ensures p.role.None? ==> r.role == u.role
    ensures p.address.Some? ==> r.address == p.address.value
    ensures p.address.None? ==> r.address == u.address
  {
    u.(email := p.email.GetOr(u.email),
       passwordHash := p.password.GetOr(u.passwordHash),
       role := p.role.GetOr(u.role),
       address := p.address.GetOr(u.address))
  }

  /**
   * `update_user`: none for an unknown id; otherwise the supplied fields overwritten and the
   * rest kept. An email already held by another user violates the unique constraint at commit.
   */
  function UpdateUser(db: Db, userId: int, patch: UserPatch): (r: Outcome<Result<Option<User>, DbError>>)
    ensures FindUser(db.users, userId).None? ==> r == Outcome(Ok(None), db)
    ensures r.value.Err? || r.value == Ok(None) ==> r.db == db
    ensures FindUser(db.users, userId).Some? ==>
              var i := FindUser(db.users, userId).value;
              (r.value.Err? <==> exists j :: 0 <= j < |db.users| && j != i
                                             && db.users[j].email == Patched(db.users[i], patch).email)
    ensures FindUser(db.users, userId).Some? && r.value.Ok? ==>
              var i := FindUser(db.users, userId).value;
              && r.value.value == Some(Patched(db.users[i], patch))
              && r.db == db.(users := db.users[i := Patched(db.users[i], patch)])
    ensures r.value.Ok? && r.value.value.Some? ==>
              exists i :: 0 <= i < |db.users| && db.users[i].id == userId
                && var u := r.value.value.value;
                && u.id == db.users[i].id
                && u.email == (if patch.email.Some? then patch.email.value else db.users[i].email)
                && u.passwordHash == (if patch.password.Some? then patch.password.value else db.users[i].passwordHash)
                && u.role == (if patch.role.Some? then patch.role.value else db.users[i].role)
                && u.address == (if patch.address.Some? then patch.address.value else db.users[i].address)
                && r.db == db.(users := db.users[i := u])
  {
    match FindUser(db.users, userId)
    case None => Outcome(Ok(None), db)
    case Some(i) =>
      var u := Patched(db.users[i], patch);
      if exists j :: 0 <= j < |db.users| && j != i && db.users[j].email == u.email then
        Outcome(Err(IntegrityError("duplicate key value violates unique constraint on users.email")), db)
      else
        Outcome(Ok(Some(u)), db.(users := db.users[i := u]))
  }

  /** Updating keeps emails and keys unique. */
  lemma UpdateUserKeepsValid(db: Db, userId: int, patch: UserPatch)
    requires Valid(db)
    ensures Valid(UpdateUser(db, userId, patch).db)
  {
  }

  /**
   * `change_password`: false, with nothing changed, for an unknown user or an old password
   * that does not verify; otherwise the stored hash becomes the hash of the new password.
   */
  function ChangePassword(db: Db, h: Hasher, userId: int, oldPassword: string, newPassword: string)
    : (r: Outcome<bool>)
    ensures !r.value ==> r.db == db
    ensures r.value <==> exists i :: 0 <= i < |db.users| && db.users[i].id == userId
                                  && h.verify(oldPassword, db.users[FindUser(db.users, userId).value].passwordHash)
    ensures r.value ==>
              var i := FindUser(db.users, userId).value;
              r.db == db.(users := db.users[i := db.users[i].(passwordHash := h.hash(newPassword))])
  {
    match FindUser(db.users, userId)
    case None => Outcome(false, db)
    case Some(i) =>
      if !h.verify(oldPassword, db.users[i].passwordHash) then Outcome(false, db)
      else Outcome(true, db.(users := db.users[i := db.users[i].(passwordHash := h.hash(newPassword))]))
  }

  /** After a password change the new password verifies, under a sound hasher. */
  lemma ChangePasswordThenVerify(db: Db, h: Hasher, userId: int, oldPassword: string, newPassword: string)
    requires SoundHasher(h)
    requires ChangePassword(db, h, userId, oldPassword, newPassword).value
    ensures var db' := ChangePassword(db, h, userId, oldPassword, newPassword).db;
            var i := FindUser(db'.users, userId);
            i.Some? && h.verify(newPassword, db'.users[i.value].passwordHash)
  {
    var db' := ChangePassword(db, h, userId, oldPassword, newPassword).db;
    var i := FindUser(db.users, userId).value;
    assert db'.users[i].id == userId;
    var k := FindUser(db'.users, userId).value;
    assert k == i by {
      assert forall j :: 0 <= j < |db'.users| && j != i ==> db'.users[j] == db.users[j];
    }
  }

  /**
   * `get_users`: at most `limit` users starting at position `skip`, in storage order (the
   * query names no order; the model fixes the one the rows are stored in).
   */
  function GetUsers(db: Db, skip: nat, limit: nat): (r: seq<User>)
    ensures |r| <= limit
    ensures |r| == (if skip >= |db.users| then 0 else if |db.users| - skip < limit then |db.users| - skip else limit)
    ensures forall i :: 0 <= i < |r| ==> r[i] == db.users[skip + i]
  {
    if skip >= |db.users| then []
    else if |db.users| - skip < limit then db.users[skip..]
    else db.users[skip..skip + limit]
  }

  /** Consecutive pages tile the listing: a page of `a` then a page of `b` is the page of `a + b`. */
  lemma GetUsersPages(db: Db, skip: nat, a: nat, b: nat)
    ensures GetUsers(db, skip, a) + GetUsers(db, skip + a, b) == GetUsers(db, skip, a + b)
  {
    var p, q, r := GetUsers(db, skip, a), GetUsers(db, skip + a, b), GetUsers(db, skip, a + b);
    assert |p + q| == |r|;
    forall k | 0 <= k < |r| ensures (p + q)[k] == r[k] {
      if k >= |p| {
        assert (p + q)[k] == q[k - |p|];
      }
    }
  }
}

=== FILE: validators.dfy ===
/**
 * The sign-up form's field checks. Each is a predicate on the typed text; the regular
 * expressions are written out as character tests.
 */
module Validators {
  import opened Wrappers
  import opened Seqs
  import opened Decimal

  /** How many UTF-16 code units JavaScript's `length` counts for a character. */
  function CodeUnits(c: char): (n: nat)
    ensures n == 1 || n == 2
  {
    if c as int >= 0x1_0000 then 2 else 1
  }

  /** JavaScript `length`: characters outside the Basic Multilingual Plane count twice. */
  function Utf16Length(s: string): (n: nat)
    ensures |s| <= n <= 2 * |s|
  {
    if |s| == 0 then 0 else Utf16Length(s[..|s| - 1]) + CodeUnits(s[|s| - 1])
  }

  /** For text within the Basic Multilingual Plane, JavaScript's length is the character count. */
  lemma {:induction false} Utf16LengthBmp(s: string)
    requires forall i :: 0 <= i < |s| ==> s[i] as int < 0x1_0000
    ensures Utf16Length(s) == |s|
  {
    if |s| > 0 {
      Utf16LengthBmp(s[..|s| - 1]);
    }
  }

  const MinPasswordLength: nat := 8

  /**
   * Password `minLength`: at least eight code units, so eight characters always pass and fewer
   * than four never do.
   */
  predicate MinLength(s: string)
    ensures |s| >= 8 ==> MinLength(s)
    ensures |s| < 4 ==> !MinLength(s)
  {
    Utf16Length(s) >= MinPasswordLength
  }

  /** For text within the Basic Multilingual Plane the check is exactly "at least eight characters". */
  lemma MinLengthBounds(s: string)
    ensures (forall i :: 0 <= i < |s| ==> s[i] as int < 0x1_0000) ==> (MinLength(s) <==> |s| >= 8)
  {
    if forall i :: 0 <= i < |s| ==> s[i] as int < 0x1_0000 {
      Utf16LengthBmp(s);
    }
  }

  predicate IsUpper(c: char) { 'A' <= c <= 'Z' }

  /** The characters `[!@#$%^&*]` admits. */
  const SpecialChars: set<char> := {'!', '@', '#', '$', '%', '^', '&', '*'}

  predicate IsSpecial(c: char) { c in SpecialChars }

  /** Password `hasUpper`: some ASCII capital letter. */
  function HasUpper(s: string): (r: bool)
    ensures r <==> exists i :: 0 <= i < |s| && 'A' <= s[i] <= 'Z'
  {
    Any(s, IsUpper)
  }

  /** Password `hasNumber`: some ASCII digit. */
  function HasNumber(s: string): (r: bool)
    ensures r <==> exists i :: 0 <= i < |s| && '0' <= s[i] <= '9'
  {
    Any(s, IsDigit)
  }

  /** Password `hasSpecial`: one of the eight listed punctuation characters. */
  function HasSpecial(s: string): (r: bool)
    ensures r <==> exists i :: 0 <= i < |s| && s[i] in {'!', '@', '#', '$', '%', '^', '&', '*'}
  {
    Any(s, IsSpecial)
  }

  /** A password every check accepts. */
  predicate PasswordAccepted(s: string) {
    MinLength(s) && HasUpper(s) && HasNumber(s) && HasSpecial(s)
  }

  /** Appending a character never makes a check fail: each is monotone in the text. */
  lemma PasswordChecksMonotone(s: string, c: char)
    ensures MinLength(s) ==> MinLength(s + [c])
    ensures HasUpper(s) ==> HasUpper(s + [c])
    ensures HasNumber(s) ==> HasNumber(s + [c])
    ensures HasSpecial(s) ==> HasSpecial(s + [c])
  {
    assert (s + [c])[..|s|] == s;
    if HasUpper(s) {
      var i :| 0 <= i < |s| && 'A' <= s[i] <= 'Z';
      assert (s + [c])[i] == s[i];
    }
    if HasNumber(s) {
      var i :| 0 <= i < |s| && '0' <= s[i] <= '9';
      assert (s + [c])[i] == s[i];
    }
    if HasSpecial(s) {
      var i :| 0 <= i < |s| && s[i] in SpecialChars;
      assert (s + [c])[i] == s[i];
    }
  }

  /** Email `required`: the empty string is the only falsy string. */
  function EmailRequired(s: string): (r: bool)
    ensures r <==> s != []
  {
    |s| != 0
  }

  /** The characters JavaScript's `\s` matches: ECMAScript white space and line terminators. */
  predicate IsSpace(c: char) {
    || c == '\t' || c == '\n' || c == '\U{000B}' || c == '\U{000C}' || c == '\r' || c == ' '
    || c == '\U{00A0}' || c == '\U{1680}' || ('\U{2000}' <= c <= '\U{200A}')
    || c == '\U{2028}' || c == '\U{2029}' || c == '\U{202F}' || c == '\U{205F}' || c == '\U{3000}' || c == '\U{FEFF}'
  }

  /** A character `[^\s@]` matches. */
  predicate Plain(c: char) {
    c != '@' && !IsSpace(c)
  }

  /**
   * The strings `^[^\s@]+@[^\s@]+\.[^\s@]+$` matches, stated directly: an `@` at position `a`
   * and a `.` at position `b`, with at least one character before the `@`, between the two,
   * and after the `.`, and every character but the `@` plain.
   */
  ghost predicate EmailShape(s: string) {
    exists a, b :: 0 < a && a + 1 < b < |s| - 1 && s[a] == '@' && s[b] == '.'
                   && forall k :: 0 <= k < |s| && k != a ==> Plain(s[k])
  }

  /**
   * Email `valid`, decided without backtracking: the first `@`, something plain before it,
   * only plain characters after it, and a `.` after it that is neither next to it nor last.
   */
  function EmailValid(s: string): (r: bool)
    ensures r ==> 0 < |s| && s[0] != '@' && s[|s| - 1] != '@'
  {
    match FindFirst(s, (c: char) => c == '@')
    case None => false
    case Some(a) =>
      && 0 < a && a + 3 < |s|
      && All(s[..a], Plain)
      && All(s[a + 1..], Plain)
      && Any(s[a + 2..|s| - 1], (c: char) => c == '.')
  }

  /** The decision procedure accepts exactly the strings of the pattern's shape. */
  lemma EmailValidMatchesShape(s: string)
    ensures EmailValid(s) <==> EmailShape(s)
  {
    var found := FindFirst(s, (c: char) => c == '@');
    if EmailValid(s) {
      var a := found.value;
      var m :| 0 <= m < |s[a + 2..|s| - 1]| && s[a + 2..|s| - 1][m] == '.';
      var b := a + 2 + m;
      assert s[b] == '.';
      forall k | 0 <= k < |s| && k != a
        ensures Plain(s[k])
      {
        if k < a {
          assert s[..a][k] == s[k];
        } else {
          assert s[a + 1..][k - a - 1] == s[k];
        }
      }
      assert EmailShape(s);
    }
    if EmailShape(s) {
      var a, b :| 0 < a && a + 1 < b < |s| - 1 && s[a] == '@' && s[b] == '.'
                  && forall k :: 0 <= k < |s| && k != a ==> Plain(s[k]);
      assert found.Some?;
      assert found.value == a;
      assert s[a + 2..|s| - 1][b - a - 2] == '.';
      assert All(s[..a], Plain);
      assert All(s[a + 1..], Plain);
    }
  }

  /** Every address the check accepts holds exactly one `@`. */
  lemma EmailValidSingleAt(s: string)
    requires EmailValid(s)
    ensures multiset(s)['@'] == 1
  {
    var a := FindFirst(s, (c: char) => c == '@').value;
    assert s == s[..a] + [s[a]] + s[a + 1..];
    assert '@' !in multiset(s[..a]) by {
      assert forall k :: 0 <= k < a ==> s[..a][k] != '@';
    }
    var rest := s[a + 1..];
    assert '@' !in multiset(rest) by {
      assert forall k :: 0 <= k < |rest| ==> Plain(rest[k]);
    }
    calc {
      multiset(s)['@'];
      (multiset(s[..a]) + multiset([s[a]]) + multiset(rest))['@'];
      multiset([s[a]])['@'];
    }
  }
}

=== FILE: wrappers.dfy ===
/** Failure-carrying result types shared by every module of the model. */
module Wrappers {

  /** An optional value: Python's `None` / JavaScript's `undefined` and their present counterparts. */
  datatype Option<+T> = None | Some(value: T) {

    /** The value, or `default` when absent (Python's `x or default`, JavaScript's default parameter). */
    function GetOr(default: T): T {
      match this
      case Some(v) => v
      case None => default
    }
  }

  /** Either a value or an error. */
  datatype Result<+T, +E> = Ok(value: T) | Err(error: E)
}
